=== FILE: README.md ===
# Next Stop bus tracker — decision rules in Dafny

Next Stop is a React front end for following city buses. Riders see the buses near them on
a map and pick a route. Fleet staff watch pollution and maintenance flags. Most of the
application fetches rows from the backend and renders them. The decisions it makes on those
rows are pure and small, and this project models them as total functions over immutable
datatypes and proves what they promise:

- **Home screen** (`PassengerHome`):
  - the stop nearest to the rider, found by a left-to-right reduce that replaces the best
    stop only on a strictly smaller distance;
  - a placeholder ETA per bus: the sum of the UTF-16 code units of its number, modulo 15,
    plus 2;
  - the buses of the nearest stop's route, ranked by ETA with a stable sort;
  - three placeholder buses shown when no bus serves that route;
  - the cut of the displayed list to five entries.
- **Fleet monitor** (`AdminMonitor`): the all / needs-attention filter, the needs-attention
  count and the operational count.
- **Route timetable** (`RouteTracking`):
  - the scheduled time, delay and actual time of each stop, as minute offsets from an
    opaque base time;
  - the Start / End / connector decoration of the stop list.
- **Search results** (`Results`): case-insensitive substring filtering of a fixed timetable,
  first by route ends, then by bus number.
- **Map panel** (`MapView`):
  - the centre fallback chain;
  - the route line;
  - the status colour of each bus marker and the size of the selected marker.
- **Status badge** (`StatusBadge`): style and label tables for bus, pollution and
  maintenance statuses.
- **Application shell** (`App`): the screen union and the menu flag as a state machine over
  the navigation, back and menu handlers, with the outcome of the two detail screens'
  fetches, which decides whether those screens show any control at all.
- **Cross-screen relations** (`Consistency`): how the tables repeated across screens agree,
  and where they do not.

Helper modules:

- `Options`: an optional value.
- `Records`: the backend's `routes`, `stops` and `buses` rows, and the search parameters.
- `Seqs`: `filter`, with order-preserving subsequence and multiplicity facts.
- `StableSort`: a functional insertion sort. The module proves it stable and proves it is the
  only stable sort, so it stands for JavaScript's `Array.prototype.sort`, which is stable.
- `Text`: ASCII case folding, `includes`, title casing of stored statuses, and UTF-16 code-unit sums.
- `Tailwind`: the colour-pill class strings, `bg-<hue>-100 text-<hue>-<shade>`.

Some facts the proofs bring out:

- The fallback list always has three entries, so the home screen's "No buses nearby" branch
  can never be taken (`PassengerHome.BusesNearYouShape`).
- Every stop of a route timetable gets a positive delay, so the green "on time" styling of
  the actual time is dead (`RouteTracking.NeverOnTime`).
- A breakdown shows as "Delayed" on the status badge but as "Breakdown" on the home and
  results screens (`Consistency.BadgeLabelAgreesButBreakdown`).
- An overcrowded bus gets `text-yellow-700` at home but `text-yellow-800` in the results
  (`Consistency.StatusColoursAgreeButOvercrowded`).

The open menu covers the whole screen with a fixed overlay above everything else, which
blocks pointer input to the screen beneath. The navigation model has two steps:

- `App.Step` is a click or tap. It lets a screen's own controls fire only while the menu is
  closed. Under it, the reachable states are exactly those in which the menu is open only
  over the home screen (`App.ReachableIffConsistent`).
- `App.KeyStep` is keyboard activation. Nothing makes the page under the menu inert, so any
  rendered control can still be focused and activated. Keyboard activation can therefore
  leave the menu open over any screen: "Find Bus" opens the results with the menu still open
  (`App.KeyboardLeavesMenuOpen`).

The bus details and route tracking screens render only "Loading..." while their fetch runs,
and only "Bus not found" or "Route not found" when it finds no row. Neither message has a
back button, and the menu button lives on the home screen alone. Opening a bus whose row
does not exist therefore leaves the rider on a page with no control at all. The home
screen's placeholder buses have the ids `mock-1` to `mock-3`, which name no row, so their
"View" button leads there (`Consistency.PlaceholderViewIsADeadEnd`; see Findings).

Facts about the source that shape the model:

- The cut to five entries applies after the fallback is chosen (`PassengerHome.tsx:139`).
- There is no nearest stop without a rider position (`PassengerHome.tsx:117-124`).
- `Screen` has six variants (`App.tsx:10-16`).

## Model

| member | source | states |
|---|---|---|
| PassengerHome.NearestOf | src/screens/PassengerHome.tsx:118-123 | the reduce yields no stop exactly on an empty list; otherwise a stop of the list at a distance no greater than every stop's |
| PassengerHome.NearestStop | src/screens/PassengerHome.tsx:117-124 | no nearest stop exactly when the rider's position is unknown or there are no stops; otherwise a member of the stops at least as close as every stop |
| PassengerHome.NearestOfIsFirstMinimum | src/screens/PassengerHome.tsx:118-123 | on a non-empty list the reduce returns the stop at a position that is closest with every earlier stop strictly farther |
| PassengerHome.FirstNearestExtends | src/screens/PassengerHome.tsx:122 | appending a stop keeps the earliest closest stop unless the new stop is strictly closer, in which case it takes over |
| PassengerHome.NearestStopBreaksTiesByOrder | src/screens/PassengerHome.tsx:117-124 | with a position and stops, an earliest closest position exists and the result is the stop there: ties go to the earliest stop |
| PassengerHome.EtaMinutes | src/screens/PassengerHome.tsx:126-129 | the ETA is an integer between 2 and 16 minutes |
| PassengerHome.EtaDependsOnlyOnNumber | src/screens/PassengerHome.tsx:127-128 | buses with equal numbers get equal ETAs |
| PassengerHome.EtaIgnoresCharacterOrder | src/screens/PassengerHome.tsx:127-128 | bus numbers that are rearrangements of each other get equal ETAs |
| PassengerHome.EntriesForMultiplicity | src/screens/PassengerHome.tsx:134 | attaching ETAs makes each bus's entry occur as often as the bus, and no entry with a wrong ETA occurs |
| PassengerHome.RouteEntryFacts | src/screens/PassengerHome.tsx:132-134 | every entry built from the route's buses holds a bus of the fleet on that route, with its own ETA |
| PassengerHome.NearbyBusEntries | src/screens/PassengerHome.tsx:131-136 | empty without a nearest stop; otherwise exactly the buses on the stop's route, each with its ETA and its multiplicity, sorted by ETA, with equal ETAs in fleet order |
| PassengerHome.RankingFacts | src/screens/PassengerHome.tsx:132-135 | sorting the route's entries keeps route membership, correct ETAs, every bus's multiplicity and the fleet order within each ETA |
| PassengerHome.FallbackEntries | src/screens/PassengerHome.tsx:138 | the fallback is the three placeholder buses, in order, each paired with its ETA |
| PassengerHome.MockNumberSums | src/screens/PassengerHome.tsx:46-86 | the placeholder numbers KL-07-101, -202 and -303 have code-unit sums 490, 492 and 494 |
| PassengerHome.MockEtas | src/screens/PassengerHome.tsx:46-86 | the three placeholder buses have ETAs of 12, 14 and 16 minutes |
| PassengerHome.FallbackEtas | src/screens/PassengerHome.tsx:138 | the fallback entries carry 12, 14 and 16 minutes |
| PassengerHome.FallbackIsRanked | src/screens/PassengerHome.tsx:138 | the fallback list is already in ETA order and carries true ETAs |
| PassengerHome.AvailableEntries | src/screens/PassengerHome.tsx:139 | at most five entries; a non-empty prefix of the ranked list when that is non-empty (all of it when shorter than five), otherwise a prefix of the fallback |
| PassengerHome.PrefixIsRanked | src/screens/PassengerHome.tsx:139 | cutting a ranked list keeps it ranked, with true ETAs |
| PassengerHome.PrefixIsEarliest | src/screens/PassengerHome.tsx:139 | every entry kept by the cut is due no later than any entry cut off |
| PassengerHome.BusesNearYouShape | src/screens/PassengerHome.tsx:131-139 | the listed buses number between one and five, in ETA order with true ETAs, so the "No buses nearby" branch at line 295 is never taken |
| PassengerHome.BusesNearYouPrefersEarliest | src/screens/PassengerHome.tsx:131-139 | when some bus serves the nearest stop's route, only such buses are listed, and none is due later than a bus of that route left out |
| PassengerHome.BusesNearYouFallsBack | src/screens/PassengerHome.tsx:138-139 | when no bus serves the nearest stop's route, or there is no nearest stop, the list is exactly the three placeholders |
| PassengerHome.BusesNearYou | src/screens/PassengerHome.tsx:117-139 | the rendered list holds one to five entries, each with its bus's ETA, and is exactly the fallback when there is no nearest stop |
| PassengerHome.StatusLabel | src/screens/PassengerHome.tsx:141-147 | each label is the stored status written as a title: hyphens become spaces and each word is capitalised |
| PassengerHome.StatusColor | src/screens/PassengerHome.tsx:149-155 | each style is a pill of one hue, pale background and shade-700 text, running green, orange, yellow and red from on time to breakdown |
| Consistency.NumberSearchNarrowsRouteSearch | src/screens/PassengerHome.tsx:157-163 | both searches pass the route ends through; the bus-number search lists a subsequence of the plain search's results, keeps every one of them whose number contains the query, and gives the same list for an empty query |
| Text.ContainsIffOccurs | src/screens/Results.tsx:90-95 | the left-to-right `includes` scan succeeds exactly when the needle occurs at some position |
| Text.CodeUnitSumAppend | src/screens/PassengerHome.tsx:127 | the character-code sum of a concatenation is the sum of the parts' sums |
| Text.CodeUnitSumPermutation | src/screens/PassengerHome.tsx:127 | the character-code sum does not depend on the order of the characters |
| StableSort.Sort | src/screens/PassengerHome.tsx:135 | the sort returns a permutation of its input in non-decreasing key order |
| StableSort.SortIsStable | src/screens/PassengerHome.tsx:135 | elements with equal keys keep their relative input order |
| StableSort.StableSortIsUnique | src/screens/PassengerHome.tsx:135 | two key-ordered lists with the same elements in the same order within each key are equal |
| StableSort.SortIsTheStableSort | src/screens/PassengerHome.tsx:135 | any stable sort of the input equals the model's sort, so a stable `Array.prototype.sort` gives the same list |
| Seqs.FilterSelects | src/screens/AdminMonitor.tsx:37-42 | `filter` keeps exactly the elements satisfying the callback, in their original order |
| Seqs.FilterMultiplicity | src/screens/AdminMonitor.tsx:37-42 | `filter` keeps every satisfying element as often as it occurs, and no other |
| Seqs.FilterSplitsLength | src/screens/AdminMonitor.tsx:44-46 | the elements kept by a callback and by its negation together number the whole list |
| AdminMonitor.FilteredBuses | src/screens/AdminMonitor.tsx:37-42 | "all" shows the fleet unchanged; "needs attention" shows an order-preserving subsequence holding every bus with high pollution or a due service, each as often as it occurs, and only those |
| AdminMonitor.NeedsAttentionCount | src/screens/AdminMonitor.tsx:44-46 | the count equals the length of the needs-attention view, never exceeds the fleet, is zero exactly when no bus has issues and is the fleet size exactly when all have |
| AdminMonitor.CountExtremes | src/screens/AdminMonitor.tsx:44-46 | the needs-attention view is empty exactly when no bus has issues, and full exactly when every bus has |
| AdminMonitor.HasIssues | src/screens/AdminMonitor.tsx:100 | a bus is flagged when its pollution is high or a service is due, and is clear exactly when its pollution is low or medium and its maintenance is ok |
| AdminMonitor.OperationalCount | src/screens/AdminMonitor.tsx:173 | the operational figure is the fleet size less the buses due for service; it is the whole fleet exactly when every bus is ok, and the buses it leaves out never outnumber the needs-attention count |
| AdminMonitor.AllOperational | src/screens/AdminMonitor.tsx:173 | no bus is due for service exactly when every bus is ok |
| AdminMonitor.NotOperationalIsFlagged | src/screens/AdminMonitor.tsx:37-46 | every bus left out of the operational figure has issues and appears in the needs-attention view |
| AdminMonitor.AllClearMeansNoIssues | src/screens/AdminMonitor.tsx:91-94 | under the needs-attention view, "All buses are running smoothly" shows exactly when no bus has issues |
| RouteTracking.DelayMinutes | src/screens/RouteTracking.tsx:21 | the delay is 2 minutes at the first stop, 1 at odd stops and 3 at later even stops |
| RouteTracking.TimesForStop | src/screens/RouteTracking.tsx:19-24 | stop `index` is scheduled 6 × `index` minutes after the base, its delay is the 2 / 1 / 3 table of `DelayMinutes` and so at least one minute, and the actual time is the scheduled time plus the delay |
| RouteTracking.TimesIncrease | src/screens/RouteTracking.tsx:20-22 | scheduled times are six minutes apart per stop, and both scheduled and actual times strictly increase along the route |
| RouteTracking.NeverOnTime | src/screens/RouteTracking.tsx:129-134 | every actual time is styled as late and carries a delay note |
| RouteTracking.StopRows | src/screens/RouteTracking.tsx:97-148 | one row per stop in order, numbered from 1, with that index's times; Start exactly at the first row, End exactly at the last, a connector below every row but the last |
| RouteTracking.StartAndEndAreUnique | src/screens/RouteTracking.tsx:139-148 | a non-empty route has exactly one Start row, the first, and one End row, the last; a single stop gets both |
| Results.StatusLabel | src/screens/Results.tsx:28-33 | each label is the stored status written as a title |
| Results.StatusStyle | src/screens/Results.tsx:21-26 | each style is a pill of one hue running green, orange, yellow and red from on time to breakdown; the text is shade 700, except shade 800 for overcrowded |
| Results.StatusTablesDistinguish | src/screens/Results.tsx:21-33 | the label and style tables give different statuses different entries |
| Results.BusNumberTerm | src/screens/Results.tsx:93-94 | a bus-number term exists exactly when the parameter is present and non-empty, and it is the parameter |
| Results.FilterItems | src/screens/Results.tsx:87-96 | an order-preserving subsequence of the items and of the route-filtered list; every result matches both route ends (and the number when one is given) ignoring case; every match is kept with its multiplicity; without a number it is the route-filtered list |
| Results.FilterKeepsMatches | src/screens/Results.tsx:88-95 | the two filters together keep every matching item as often as it occurs |
| Results.Filtered | src/screens/Results.tsx:87-96 | the shown results are an order-preserving subsequence of the fixed timetable, every one matches the search, and every matching timetable entry is shown |
| Results.EmptyTermsMatchAll | src/screens/Results.tsx:88-92 | empty route names without a number list every item |
| Results.EmptyNumberIsRouteSearch | src/screens/Results.tsx:93 | an empty bus number gives the same results as a plain route search |
| MapView.ResolvedCenter | src/components/MapView.tsx:17-22 | an explicit centre wins; otherwise the first stop; otherwise the first bus; otherwise the default (9.5916, 76.5222) |
| MapView.CenterIsOnOffer | src/components/MapView.tsx:15-22 | the centre is always the given centre, a stop's or a bus's position, or the default |
| MapView.RoutePath | src/components/MapView.tsx:26-29 | the route path has one point per stop, in order, each the stop's position |
| MapView.RoutePathAppend | src/components/MapView.tsx:26-29 | the path of two stop lists joined is the two paths joined |
| MapView.RouteMapStartsAtLine | src/components/MapView.tsx:55 | a requested route line is drawn exactly when there are stops, and a map with no explicit centre is centred where the line starts |
| MapView.BusColor | src/components/MapView.tsx:31-38 | the colour is one of four, grey exactly for a status other than on-time, delayed and overcrowded |
| MapView.BusColorsDistinguish | src/components/MapView.tsx:31-38 | on-time, delayed and overcrowded get three different colours; every other status, breakdown included, is grey |
| MapView.BusMarker | src/components/MapView.tsx:76-86 | a selected bus is drawn with radius 12 and weight 3, others with 10 and 2, at the bus's position and filled with its status colour |
| MapView.BusMarkers | src/components/MapView.tsx:75-94 | one marker per bus, in order |
| MapView.AtMostOneEnlarged | src/components/MapView.tsx:76-84 | with unique bus ids at most one marker is enlarged; none without a selection; exactly the selected bus's otherwise |
| StatusBadge.TypeOrDefault | src/components/StatusBadge.tsx:6 | the badge type defaults to bus |
| StatusBadge.Styles | src/components/StatusBadge.tsx:7-40 | the style is one of the green, yellow, red and grey pills; grey exactly for a status the badge type does not know; red exactly for overcrowded, high pollution or a due service |
| StatusBadge.Label | src/components/StatusBadge.tsx:42-50 | a bus badge reads "On Time", "Overcrowded" or "Delayed", the last for every other status; a pollution badge shows the status with its first character upper-cased; a maintenance badge reads "OK" exactly for ok, otherwise "Needs Service" |
| StatusBadge.ColoursDiffer | src/components/StatusBadge.tsx:7-40 | the green, yellow, red and grey styles are pairwise different |
| StatusBadge.BusBadgeTable | src/components/StatusBadge.tsx:8-18 | on the stored statuses the bus badge is green "On Time", yellow "Delayed", red "Overcrowded", and grey "Delayed" for a breakdown |
| StatusBadge.BusLabelsAreThree | src/components/StatusBadge.tsx:44 | any bus status reads "On Time", "Overcrowded" or "Delayed"; a breakdown reads like a delay but is styled differently |
| StatusBadge.PollutionLabelCapitalises | src/components/StatusBadge.tsx:46 | the pollution label is the status with its first character upper-cased and the rest unchanged |
| StatusBadge.PollutionBadgeTable | src/components/StatusBadge.tsx:19-29 | low, medium and high pollution are green "Low", yellow "Medium" and red "High" |
| StatusBadge.MaintenanceBadgeTable | src/components/StatusBadge.tsx:30-48 | ok is green "OK"; a due service is red "Needs Service" |
| StatusBadge.RedMeansTrouble | src/components/StatusBadge.tsx:19-38 | a pollution badge is red exactly for high pollution and a maintenance badge exactly for a due service |
| App.Step | src/App.tsx:22-124 | a click fires a handler exactly when its control is rendered and not under the open menu's overlay; it keeps the menu open only over home; every handler but opening and closing the menu leaves the menu closed |
| App.KeyStep | src/App.tsx:22-124 | a keyboard activation fires any rendered control, so never back on a loading or not-found page; it agrees with the click step wherever that fires; a screen control under the open menu opens what a click on the uncovered page opens, and leaves the menu flag unchanged; menu controls close the menu |
| App.KeyboardLeavesMenuOpen | src/App.tsx:30-32 | with the menu open over home, activating the search from the keyboard opens the results with the menu still open, a state no click sequence reaches |
| App.RouteLinkAndFetches | src/screens/BusDetails.tsx:100-134 | "View Full Route" fires only on a bus page whose route was found and opens that route; a finished fetch only replaces its own screen's loading message |
| App.FetchesAreNeverCovered | src/screens/BusDetails.tsx:20-53 | in a state with the menu open only over home, a fetch that can finish is never under the overlay |
| App.NavigationCarriesArguments | src/App.tsx:22-41 | each navigation opens its screen with the bus id, route id or search parameters unchanged, a detail screen still loading; only the admin entry touches the menu, closing it |
| App.BackAndMenuHandlers | src/App.tsx:53-124 | every back button and the Passenger View entry land on home with the menu closed; opening or closing the menu changes only the flag |
| App.RunKeepsConsistent | src/App.tsx:99-124 | any run of handlers from a state with the menu open only over home ends in such a state |
| App.PathTo | src/App.tsx:22-41 | every screen, with any argument and any fetch outcome, can be reached from the start with the menu closed; a route through a bus page on which that route was found |
| App.ReachableIffConsistent | src/App.tsx:19-124 | a state is reachable from the start by clicks and fetches exactly when the menu, if open, is open over home |
| App.BackSkipsBusDetails | src/App.tsx:62-70 | there is no history: bus, then its route, then back lands on home, not on the bus |
| App.MissingBusIsADeadEnd | src/screens/BusDetails.tsx:55-69 | a bus card whose id has no row leads in one tap and one fetch to the not-found page, where no click, key or fetch changes anything |
| App.FixedStep | src/screens/BusDetails.tsx:55-86 | with a back button on the loading and not-found pages as well, a click fires everything the program's click fires, plus back from those pages, and still keeps the menu open only over home |
| App.FixedHomeIsOneStepAway | src/screens/RouteTracking.tsx:49-74 | with a back button on every page, home is at most one click away from every reachable state |
| App.HomeIsOneStepAway | src/App.tsx:43-124 | from a reachable state home with the menu closed is at most one click away exactly when the screen shows its page, not a loading or not-found message |
| Consistency.StatusLabelsAgree | src/screens/PassengerHome.tsx:141-147 | the home screen labels statuses as the results screen does, and distinct statuses get distinct labels |
| Consistency.StatusColoursAgreeButOvercrowded | src/screens/PassengerHome.tsx:149-155 | the home and results status styles agree on every status except overcrowded |
| Consistency.BadgeLabelAgreesButBreakdown | src/components/StatusBadge.tsx:44 | the badge label matches the home screen's label on every status except breakdown |
| Consistency.GreyOnMapIffGreyBadge | src/components/MapView.tsx:31-38 | for any status string the map marker is grey exactly when the bus badge is grey |
| Consistency.MarkerColourFollowsBadge | src/components/MapView.tsx:31-38 | a bus marker is green, amber or red exactly when the bus badge of the same status is green, yellow or red |
| Consistency.PlaceholderViewIsADeadEnd | src/screens/PassengerHome.tsx:46-86 | when no bus serves the nearest stop's route, every listed card is a placeholder `mock-1` to `mock-3`, and viewing it with no such row in the backend ends on the dead-end not-found page |
| Consistency.IssuesAreRedBadges | src/screens/AdminMonitor.tsx:100 | a bus needs attention exactly when its pollution or maintenance badge is red |
| Consistency.DefaultSearchListsEverything | src/screens/Results.tsx:87-96 | a bus search with the home screen's default route names lists the whole timetable |
| Consistency.FallbackBusesAreTimetabled | src/screens/PassengerHome.tsx:46-86 | the three placeholder buses carry the numbers of the timetable's first three entries, in order |

## Left out

- The backend client and every fetch are not modelled. This covers loading flags, error logging and the ordering the queries ask for. The rows are parameters. The two detail screens' fetches enter the App model only as their outcome: loading, not found, or found.
- App.Rendered: a bus card's "View" may carry any id and the searches any parameters. Which cards the home screen lists is modelled in `PassengerHome`, and the home screen's own loading message is not modelled.
- The haversine distance (`PassengerHome.tsx:101-115`) is floating-point trigonometry. The nearest-stop model takes any real-valued distance function instead. Symmetry and zero self-distance are therefore not stated.
- Geolocation and its fallback position (`PassengerHome.tsx:88-99`) are left out. The rider's position is an optional parameter. `NearYou.tsx` is only this plumbing plus rendering.
- The random ETAs of `BusDetails.tsx` and `BusCard.tsx` are left out because they are nondeterministic. Both files are otherwise fetch and render.
- Clocks and locale formatting are not modelled: `new Date()`, `toLocaleTimeString`, the results screen's day label and `toISOString`. Timetable times are integer minutes from an opaque base.
- PassengerHome.MockNearestBuses: all six `updated_at` and `created_at` stamps are the one parameter `now`. The source calls `new Date().toISOString()` separately for each (`PassengerHome.tsx:57-58`, `70-71`, `83-84`), so its stamps can differ.
- Case folding covers ASCII letters only; full Unicode `toLowerCase` and `toUpperCase` are left out.
- JSX, styling beyond the colour tables, Leaflet components and the map's `centerKey` string are not modelled. The same goes for the hard-coded "Ernakulam" card, which ignores the computed nearest stop.
- JavaScript numbers are doubles. The model uses unbounded integers and reals. Code-unit sums of realistic bus numbers are far below 2^53, so nothing is lost there.
- PassengerHome.StatusColor: the source's final grey pill, `bg-gray-100 text-gray-700`, for an unknown status is not modelled. The status type admits only the four values, so that line cannot run.
- PassengerHome.StatusLabel: the source's final `return status` for an unknown status is not modelled. The status type admits only the four values, so that line cannot run.
- App.Step: models pointer input only. The overlay is fixed, covers the viewport and has z-index 2000, so it blocks clicks on the screen beneath. It does not block keyboard focus, and `App.KeyStep` models that path.
- App.Enabled: a finished fetch passes the same overlay guard as a click, a modelling convenience and not program behaviour. `App.FetchesAreNeverCovered` shows that in every state a click reaches, the guard never holds a fetch back, and `App.KeyStep` fires fetches unguarded.

## Findings

| source | as written | input that shows it | evidently intended | confidence | as-written member | corrected member |
|---|---|---|---|---|---|---|
| src/screens/BusDetails.tsx:55-69 | the loading and "Bus not found" pages return before the header, so they have no back button, and the menu button exists only on the home screen | no bus serves the nearest stop's route; the rider taps "View" on the placeholder `mock-1` (`PassengerHome.tsx:48`, `317`), the fetch finds no row, and no control is left | the header with its back button stays on the loading and not-found pages, so home is always one click away | medium, not executed | App.MissingBusIsADeadEnd | App.FixedHomeIsOneStepAway |

`App.FixedStep` adds only the missing back buttons. The rest of the App model keeps the program's own step, so that its lemmas describe the program as written.

=== FILE: admin_monitor.dfy ===
/**
 * The fleet monitor: the all / needs-attention filter over the buses, the
 * needs-attention count on the filter button, and the operational count in the footer.
 */
module AdminMonitor {
  import opened Records
  import opened Seqs

  /** The two filter buttons. */
  datatype FleetFilter = All | NeedsAttention

  /**
   * `hasIssues`: high pollution or due for service. A bus is clear exactly when its
   * pollution is low or medium and its maintenance is ok.
   */
  predicate HasIssues(bus: Bus): (flagged: bool)
    ensures bus.pollutionLevel == High ==> flagged
    ensures bus.maintenanceStatus != Ok ==> flagged
    ensures !flagged <==> bus.pollutionLevel in {Low, Medium} && bus.maintenanceStatus == Ok
  {
    bus.pollutionLevel == High || bus.maintenanceStatus == NeedsService
  }

  /** The callback `filteredBuses` passes to `filter`. */
  function Shown(filter: FleetFilter): Bus -> bool {
    (bus: Bus) => if filter == NeedsAttention then HasIssues(bus) else true
  }

  /**
   * `filteredBuses`: every bus under `All`; under `NeedsAttention`, exactly the buses
   * with issues, in their original order and with their original multiplicity.
   */
  function FilteredBuses(buses: seq<Bus>, filter: FleetFilter): (r: seq<Bus>)
    ensures filter == All ==> r == buses
    ensures IsSubseq(r, buses)
    ensures filter == NeedsAttention ==> forall b | b in r :: HasIssues(b)
    ensures filter == NeedsAttention ==> forall b | HasIssues(b) :: multiset(r)[b] == multiset(buses)[b]
  {
    FilterIsSubseq(buses, Shown(filter));
    FilterFacts(buses, Shown(filter));
    if filter == All then
      FilterAll(buses, Shown(filter));
      Filter(buses, Shown(filter))
    else
      Filter(buses, Shown(filter))
  }

  /** The multiplicity fact of `Filter`, for every element at once. */
  lemma FilterFacts(buses: seq<Bus>, p: Bus -> bool)
    ensures forall b | p(b) :: multiset(Filter(buses, p))[b] == multiset(buses)[b]
  {
    forall b | p(b)
      ensures multiset(Filter(buses, p))[b] == multiset(buses)[b]
    {
      FilterMultiplicity(buses, p, b);
    }
  }

  /** The callback `needsAttentionCount` passes to `filter`. */
  function IssueFlag(): Bus -> bool {
    (bus: Bus) => bus.pollutionLevel == High || bus.maintenanceStatus == NeedsService
  }

  /**
   * `needsAttentionCount`: the length of its own filter, which lists the same buses
   * as the needs-attention view; zero exactly when no bus has issues, and the whole
   * fleet exactly when every bus has.
   */
  function NeedsAttentionCount(buses: seq<Bus>): (n: nat)
    ensures n == |FilteredBuses(buses, NeedsAttention)|
    ensures n <= |buses|
    ensures n == 0 <==> forall b | b in buses :: !HasIssues(b)
    ensures n == |buses| <==> forall b | b in buses :: HasIssues(b)
  {
    var n := |Filter(buses, IssueFlag())|;
    FilterAgree(buses, IssueFlag(), Shown(NeedsAttention));
    CountExtremes(buses);
    n
  }

  /** When the needs-attention view is empty and when it is everything. */
  lemma CountExtremes(buses: seq<Bus>)
    ensures |Filter(buses, Shown(NeedsAttention))| == 0 <==> forall b | b in buses :: !HasIssues(b)
    ensures |Filter(buses, Shown(NeedsAttention))| == |buses| <==> forall b | b in buses :: HasIssues(b)
  {
    var p := Shown(NeedsAttention);
    var r := Filter(buses, p);
    if forall b | b in buses :: !HasIssues(b) {
      FilterNone(buses, p);
    }
    if |r| == 0 {
      forall b | b in buses
        ensures !HasIssues(b)
      {
        FilterMultiplicity(buses, p, b);
      }
    }
    if forall b | b in buses :: HasIssues(b) {
      FilterAll(buses, p);
    }
    if |r| == |buses| {
      FilterSplitsLength(buses, p);
      forall b | b in buses
        ensures HasIssues(b)
      {
        FilterMultiplicity(buses, Not(p), b);
        assert |Filter(buses, Not(p))| == 0;
      }
    }
  }

  /** A bus counted in the footer's "Operational" figure. */
  function Operational(): Bus -> bool {
    (bus: Bus) => bus.maintenanceStatus == Ok
  }

  /** A bus due for service. */
  function DueForService(): Bus -> bool {
    (bus: Bus) => bus.maintenanceStatus == NeedsService
  }

  /**
   * The footer's operational count: the fleet less the buses due for service, the
   * whole fleet exactly when every bus is ok. Every bus it leaves out is flagged, so
   * those buses never outnumber the needs-attention count.
   */
  function OperationalCount(buses: seq<Bus>): (n: nat)
    ensures n <= |buses|
    ensures n == |buses| - |Filter(buses, DueForService())|
    ensures n == |buses| <==> forall b | b in buses :: b.maintenanceStatus == Ok
    ensures |buses| - n <= NeedsAttentionCount(buses)
  {
    var n := |Filter(buses, Operational())|;
    FilterSplitsLength(buses, Operational());
    FilterAgree(buses, Not(Operational()), DueForService());
    FilterMonotone(buses, Not(Operational()), IssueFlag());
    AllOperational(buses);
    n
  }

  /** No bus is due for service exactly when that filter is empty. */
  lemma AllOperational(buses: seq<Bus>)
    ensures |Filter(buses, DueForService())| == 0 <==> forall b | b in buses :: b.maintenanceStatus == Ok
  {
    var p := DueForService();
    if forall b | b in buses :: b.maintenanceStatus == Ok {
      FilterNone(buses, p);
    }
    if |Filter(buses, p)| == 0 {
      forall b | b in buses
        ensures b.maintenanceStatus == Ok
      {
        FilterMultiplicity(buses, p, b);
      }
    }
  }

  /** Every bus left out of the operational figure is shown under needs attention. */
  lemma NotOperationalIsFlagged(buses: seq<Bus>)
    ensures forall b | b in buses && !Operational()(b) :: HasIssues(b) && b in FilteredBuses(buses, NeedsAttention)
  {
    forall b | b in buses && !Operational()(b)
      ensures b in FilteredBuses(buses, NeedsAttention)
    {
      assert multiset(FilteredBuses(buses, NeedsAttention))[b] == multiset(buses)[b];
    }
  }

  /** "All buses are running smoothly" shows when the chosen view is empty (once loaded). */
  predicate ShowsAllClear(buses: seq<Bus>, filter: FleetFilter) {
    |FilteredBuses(buses, filter)| == 0
  }

  /** Under the needs-attention view the all-clear message means what it says. */
  lemma AllClearMeansNoIssues(buses: seq<Bus>)
    ensures ShowsAllClear(buses, NeedsAttention) <==> forall b | b in buses :: !HasIssues(b)
  {
    CountExtremes(buses);
  }
}

=== FILE: app.dfy ===
/**
 * The application shell: which screen is showing, whether the side menu is open,
 * and how the navigation, back and menu handlers move between them.
 */
module App {
  import opened Options
  import opened Records

  /**
   * How the fetch of a detail screen stands: still loading, finished without a row, or
   * finished with a row, of which the model keeps what the shell needs.
   */
  datatype Lookup<T> = Loading | NotFound | Found(row: T)

  /**
   * The `Screen` union; each variant carries the argument its screen is opened with.
   * The two detail screens also carry their fetch, because they render nothing but a
   * message until it has found its row: the bus screen keeps the id of the bus's
   * route when that route's row was found, and the route screen needs nothing more.
   */
  datatype Screen =
    | PassengerHome
    | BusDetails(busId: string, bus: Lookup<Option<string>>)
    | RouteTracking(routeId: string, route: Lookup<()>)
    | NearYou
    | Results(params: SearchParams)
    | AdminMonitor

  /** The shell's two pieces of state. */
  datatype State = State(screen: Screen, menuOpen: bool)

  /** The home screen with the menu closed. */
  const Initial: State := State(PassengerHome, false)

  /** The handlers a user can trigger, and the two fetches that can finish. */
  datatype Event =
    | SelectBus(busId: string)        // a bus card on the home screen
    | OpenMenu                        // the menu button on the home screen
    | SeeAllStops                     // "see all stops" on the home screen
    | Search(params: SearchParams)    // either search on the home screen
    | ViewRoute(routeId: string)      // "view full route" on a bus details page with a route
    | Back                            // the back button in the header of a shown page
    | CloseMenu                       // the menu's backdrop or close button
    | MenuPassengerView               // the menu's Passenger View entry
    | MenuAdminMonitor                // the menu's Admin Monitor entry
    | BusFetched(bus: Lookup<Option<string>>)  // the bus details fetch finishes
    | RouteFetched(route: Lookup<()>)          // the route tracking fetch finishes

  /**
   * Whether a screen shows its page. The detail screens show only "Loading..." while
   * their fetch runs and only a not-found message when it found no row: no header,
   * so no back button.
   */
  predicate ShowsPage(screen: Screen) {
    match screen
    case BusDetails(_, bus) => bus.Found?
    case RouteTracking(_, route) => route.Found?
    case _ => true
  }

  /**
   * Whether a handler can be triggered at all: a screen's own controls while that
   * screen shows them, whether or not the menu is open, the menu's controls while it
   * is open, and a fetch's completion while its screen is still loading.
   */
  predicate Rendered(s: State, e: Event) {
    match e
    case SelectBus(_) => s.screen == PassengerHome
    case OpenMenu => s.screen == PassengerHome
    case SeeAllStops => s.screen == PassengerHome
    case Search(_) => s.screen == PassengerHome
    case ViewRoute(routeId) => s.screen.BusDetails? && s.screen.bus == Found(Some(routeId))
    case Back => s.screen != PassengerHome && ShowsPage(s.screen)
    case CloseMenu => s.menuOpen
    case MenuPassengerView => s.menuOpen
    case MenuAdminMonitor => s.menuOpen
    case BusFetched(bus) => s.screen.BusDetails? && s.screen.bus.Loading? && !bus.Loading?
    case RouteFetched(route) => s.screen.RouteTracking? && s.screen.route.Loading? && !route.Loading?
  }

  /** Whether a handler is one of the menu's own controls. */
  predicate IsMenuControl(e: Event) {
    e == CloseMenu || e == MenuPassengerView || e == MenuAdminMonitor
  }

  /** Whether an event is a fetch finishing rather than a user's action. */
  predicate IsFetch(e: Event) {
    e.BusFetched? || e.RouteFetched?
  }

  /**
   * Whether a handler can fire by pointer: the open menu's full-screen overlay lies
   * on top of the screen, so a screen's controls only while the menu is closed, and
   * the menu's controls only while it is open. A fetch is guarded the same way for
   * convenience only: in the program a finished fetch is no pointer input and the
   * overlay cannot hold it back, but in every state a click reaches no fetch is
   * outstanding while the menu is open (`FetchesAreNeverCovered`), so the guard
   * takes nothing away.
   */
  predicate Enabled(s: State, e: Event) {
    Rendered(s, e) && (IsMenuControl(e) || !s.menuOpen)
  }

  /** The menu is only ever open over the home screen. */
  predicate Consistent(s: State) {
    s.menuOpen ==> s.screen == PassengerHome
  }

  /** What a handler does to the state once it fires; a navigation opens its screen loading. */
  function Apply(s: State, e: Event): State {
    match e
    case SelectBus(busId) => State(BusDetails(busId, Loading), s.menuOpen)
    case OpenMenu => State(s.screen, true)
    case SeeAllStops => State(NearYou, s.menuOpen)
    case Search(params) => State(Results(params), s.menuOpen)
    case ViewRoute(routeId) => State(RouteTracking(routeId, Loading), s.menuOpen)
    case Back => State(PassengerHome, s.menuOpen)
    case CloseMenu => State(s.screen, false)
    case MenuPassengerView => State(PassengerHome, false)
    case MenuAdminMonitor => State(AdminMonitor, false)
    case BusFetched(bus) =>
      if s.screen.BusDetails? then State(BusDetails(s.screen.busId, bus), s.menuOpen) else s
    case RouteFetched(route) =>
      if s.screen.RouteTracking? then State(RouteTracking(s.screen.routeId, route), s.menuOpen) else s
  }

  /** With the menu open only over home, a fetch that can finish is never under the overlay. */
  lemma FetchesAreNeverCovered(s: State, e: Event)
    requires Consistent(s) && IsFetch(e)
    ensures Rendered(s, e) <==> Enabled(s, e)
  {
  }

  /** One handler fired by pointer; none when it cannot fire in `s`. */
  function Step(s: State, e: Event): (r: Option<State>)
    ensures r.Some? <==> Enabled(s, e)
    ensures r.Some? && Consistent(s) ==> Consistent(r.value)
    ensures r.Some? && e != OpenMenu && e != CloseMenu ==> !r.value.menuOpen
  {
    if Enabled(s, e) then Some(Apply(s, e)) else None
  }

  /**
   * One handler fired from the keyboard. Nothing makes the page under the open menu
   * inert, so every rendered control can be focused and activated: the screen's
   * handlers then leave the menu flag as it was, and the pointer step is the special
   * case where the menu is closed or a menu control fires.
   */
  function KeyStep(s: State, e: Event): (r: Option<State>)
    ensures r.Some? <==> Rendered(s, e)
    ensures Enabled(s, e) ==> r == Step(s, e)
    ensures r.Some? && !IsMenuControl(e) && e != OpenMenu ==> r.value.menuOpen == s.menuOpen
    ensures r.Some? && IsMenuControl(e) ==> !r.value.menuOpen
    ensures r.Some? && !IsMenuControl(e) && e != OpenMenu ==>
      Step(s.(menuOpen := false), e) == Some(r.value.(menuOpen := false))
  {
    if Rendered(s, e) then Some(Apply(s, e)) else None
  }

  /**
   * From the keyboard the invariant fails: with the menu open over home, activating
   * "Find Bus" opens the results with the menu still open over them.
   */
  lemma KeyboardLeavesMenuOpen(params: SearchParams)
    ensures Run(Initial, [OpenMenu]) == Some(State(PassengerHome, true))
    ensures !Enabled(State(PassengerHome, true), Search(params))
    ensures KeyStep(State(PassengerHome, true), Search(params)) == Some(State(Results(params), true))
    ensures !Consistent(State(Results(params), true))
  {
    assert Run(State(PassengerHome, true), []) == Some(State(PassengerHome, true));
  }

  /** The screen a `navigateTo*` handler opens, given the event that called it. */
  function Target(e: Event): Option<Screen> {
    match e
    case SelectBus(busId) => Some(BusDetails(busId, Loading))
    case SeeAllStops => Some(NearYou)
    case Search(params) => Some(Results(params))
    case ViewRoute(routeId) => Some(RouteTracking(routeId, Loading))
    case MenuAdminMonitor => Some(AdminMonitor)
    case _ => None
  }

  /**
   * Each navigation opens its screen with the event's argument unchanged, a detail
   * screen still loading; all but the admin entry leave the menu flag alone, and that
   * one closes the menu.
   */
  lemma NavigationCarriesArguments(s: State, e: Event)
    requires Enabled(s, e) && Target(e).Some?
    ensures Step(s, e).value.screen == Target(e).value
    ensures e != MenuAdminMonitor ==> Step(s, e).value.menuOpen == s.menuOpen
    ensures e == MenuAdminMonitor ==> !Step(s, e).value.menuOpen
  {
  }

  /**
   * "View Full Route" is only on a bus page whose route was found, and it opens that
   * route; a finished fetch only replaces its own screen's loading message.
   */
  lemma RouteLinkAndFetches(s: State, e: Event)
    requires Enabled(s, e)
    ensures e.ViewRoute? ==> s.screen.BusDetails? && s.screen.bus == Found(Some(e.routeId))
    ensures e.BusFetched? ==> Step(s, e) == Some(State(BusDetails(s.screen.busId, e.bus), false))
    ensures e.RouteFetched? ==> Step(s, e) == Some(State(RouteTracking(s.screen.routeId, e.route), false))
  {
  }

  /**
   * Every back button returns to the home screen with the menu closed, whatever the
   * screen; opening and closing the menu change only the flag.
   */
  lemma BackAndMenuHandlers(s: State)
    ensures Enabled(s, Back) ==> Step(s, Back) == Some(Initial)
    ensures Enabled(s, OpenMenu) ==> Step(s, OpenMenu) == Some(State(s.screen, true))
    ensures Enabled(s, CloseMenu) ==> Step(s, CloseMenu) == Some(State(s.screen, false))
    ensures Enabled(s, MenuPassengerView) ==> Step(s, MenuPassengerView) == Some(Initial)
  {
  }

  /** A sequence of handlers, stopping with none as soon as one cannot fire. */
  function Run(s: State, events: seq<Event>): Option<State>
    decreases |events|
  {
    if |events| == 0 then Some(s)
    else
      match Step(s, events[0])
      case None => None
      case Some(next) => Run(next, events[1..])
  }

  /** Every run from a consistent state ends in a consistent state. */
  lemma {:induction false} RunKeepsConsistent(s: State, events: seq<Event>)
    requires Consistent(s)
    ensures Run(s, events).Some? ==> Consistent(Run(s, events).value)
    decreases |events|
  {
    if |events| > 0 {
      match Step(s, events[0])
      case None =>
      case Some(next) => RunKeepsConsistent(next, events[1..]);
    }
  }

  /** The states some run from the start reaches. */
  ghost predicate Reachable(s: State) {
    exists events :: Run(Initial, events) == Some(s)
  }

  /** The fetch completion that takes a loading detail screen to `screen`, if it needs one. */
  function Settle(screen: Screen): seq<Event> {
    match screen
    case BusDetails(_, bus) => if bus.Loading? then [] else [BusFetched(bus)]
    case RouteTracking(_, route) => if route.Loading? then [] else [RouteFetched(route)]
    case _ => []
  }

  /**
   * A run from the start that opens a given screen, in any state of its fetch, with the
   * menu closed; a route is reached through a bus page on which that route was found.
   */
  function PathTo(screen: Screen): (events: seq<Event>)
    ensures Run(Initial, events) == Some(State(screen, false))
  {
    match screen
    case PassengerHome => []
    case BusDetails(busId, bus) =>
      assert Run(State(BusDetails(busId, Loading), false), Settle(screen)) == Some(State(screen, false));
      [SelectBus(busId)] + Settle(screen)
    case RouteTracking(routeId, route) =>
      var onRoute := [ViewRoute(routeId)] + Settle(screen);
      var onBus := [BusFetched(Found(Some(routeId)))] + onRoute;
      assert Run(State(RouteTracking(routeId, Loading), false), Settle(screen)) == Some(State(screen, false));
      assert onRoute[1..] == Settle(screen);
      assert Run(State(BusDetails("", Found(Some(routeId))), false), onRoute) == Some(State(screen, false));
      assert onBus[1..] == onRoute;
      assert Run(State(BusDetails("", Loading), false), onBus) == Some(State(screen, false));
      assert ([SelectBus("")] + onBus)[1..] == onBus;
      [SelectBus("")] + onBus
    case NearYou => [SeeAllStops]
    case Results(params) => [Search(params)]
    case AdminMonitor =>
      assert Run(State(PassengerHome, true), [MenuAdminMonitor]) == Some(State(screen, false));
      [OpenMenu, MenuAdminMonitor]
  }

  /**
   * The reachable states are exactly the consistent ones: every screen can be
   * reached with the menu closed, the menu can be opened over home, and nothing
   * else can happen.
   */
  lemma ReachableIffConsistent(s: State)
    ensures Reachable(s) <==> Consistent(s)
  {
    if Reachable(s) {
      var events :| Run(Initial, events) == Some(s);
      RunKeepsConsistent(Initial, events);
    }
    if Consistent(s) {
      if s.menuOpen {
        assert Run(Initial, [OpenMenu]) == Some(s);
      } else {
        assert Run(Initial, PathTo(s.screen)) == Some(s);
      }
    }
  }

  /** There is no history: going back from a route opened via a bus lands home, not on that bus. */
  lemma BackSkipsBusDetails(busId: string, routeId: string)
    ensures Run(Initial, [SelectBus(busId), BusFetched(Found(Some(routeId))), ViewRoute(routeId),
                          RouteFetched(Found(())), Back]) == Some(Initial)
  {
    var shown := State(RouteTracking(routeId, Found(())), false);
    var onBus := State(BusDetails(busId, Found(Some(routeId))), false);
    assert Run(shown, [Back]) == Some(Initial);
    assert Run(State(RouteTracking(routeId, Loading), false), [RouteFetched(Found(())), Back]) == Some(Initial);
    assert Run(onBus, [ViewRoute(routeId), RouteFetched(Found(())), Back]) == Some(Initial);
    assert Run(State(BusDetails(busId, Loading), false),
               [BusFetched(Found(Some(routeId))), ViewRoute(routeId), RouteFetched(Found(())), Back]) == Some(Initial);
  }

  /**
   * From a reachable state, home with the menu closed is at most one handler away
   * exactly when the screen shows its page: a detail screen that is loading or found
   * nothing has no back button and no menu.
   */
  lemma HomeIsOneStepAway(s: State)
    requires Consistent(s)
    ensures (s == Initial || exists e :: Step(s, e) == Some(Initial)) <==> ShowsPage(s.screen)
  {
    if s.menuOpen {
      assert Step(s, MenuPassengerView) == Some(Initial);
    } else if s.screen != PassengerHome && ShowsPage(s.screen) {
      assert Step(s, Back) == Some(Initial);
    } else if !ShowsPage(s.screen) {
      forall e | Step(s, e).Some? ensures Step(s, e).value.screen != PassengerHome {
      }
    }
  }

  /** A state in which nothing a user or a fetch does can change anything. */
  ghost predicate DeadEnd(s: State) {
    forall e :: Step(s, e).None? && KeyStep(s, e).None?
  }

  /**
   * The not-found bus page is a dead end, and one tap on a bus card reaches it when
   * the backend has no row for the card's id, as for the home screen's placeholders.
   */
  lemma MissingBusIsADeadEnd(busId: string)
    ensures Run(Initial, [SelectBus(busId), BusFetched(NotFound)]) == Some(State(BusDetails(busId, NotFound), false))
    ensures DeadEnd(State(BusDetails(busId, NotFound), false))
  {
    assert Run(State(BusDetails(busId, Loading), false), [BusFetched(NotFound)])
      == Some(State(BusDetails(busId, NotFound), false));
  }

  /**
   * The evidently intended pages: a detail screen keeps its header, and with it the
   * back button, while it loads and when it finds nothing.
   */
  predicate RenderedWithBack(s: State, e: Event) {
    Rendered(s, e) || (e == Back && s.screen != PassengerHome)
  }

  /** A click under those pages: it fires everything the program's click fires, and back from a message. */
  function FixedStep(s: State, e: Event): (r: Option<State>)
    ensures Step(s, e).Some? ==> r == Step(s, e)
    ensures r.Some? && r != Step(s, e) ==> e == Back && !ShowsPage(s.screen) && !s.menuOpen
    ensures r.Some? && Consistent(s) ==> Consistent(r.value)
  {
    if RenderedWithBack(s, e) && (IsMenuControl(e) || !s.menuOpen) then Some(Apply(s, e)) else None
  }

  /** With the back button on every page, home is at most one click away from every reachable state. */
  lemma FixedHomeIsOneStepAway(s: State)
    requires Consistent(s)
    ensures s == Initial || exists e :: FixedStep(s, e) == Some(Initial)
  {
    if s.menuOpen {
      assert FixedStep(s, MenuPassengerView) == Some(Initial);
    } else if s.screen != PassengerHome {
      assert FixedStep(s, Back) == Some(Initial);
    }
  }
}

=== FILE: consistency.dfy ===
/**
 * How the screens' separate tables relate: status labels and colours repeated
 * across screens, the map's colours against the badge's, and the fleet monitor's
 * issue test against the badges it shows.
 */
module Consistency {
  import opened Options
  import opened Records
  import PassengerHome
  import Results
  import StatusBadge
  import MapView
  import AdminMonitor
  import App
  import opened Text
  import opened Seqs

  /**
   * The home screen and the results screen label statuses identically, and both
   * give the four statuses four different labels.
   */
  lemma StatusLabelsAgree(s: BusStatus, t: BusStatus)
    ensures PassengerHome.StatusLabel(s) == Results.StatusLabel(s)
    ensures s != t ==> PassengerHome.StatusLabel(s) != PassengerHome.StatusLabel(t)
  {
    if s != t {
      Results.StatusTablesDistinguish(s, t);
    }
  }

  /**
   * The two screens' status colours agree except for an overcrowded bus, whose
   * text is one shade darker on the results screen.
   */
  lemma StatusColoursAgreeButOvercrowded(s: BusStatus)
    ensures PassengerHome.StatusColor(s) == Results.StatusStyle(s) <==> s != Overcrowded
  {
    if s == Overcrowded {
      assert PassengerHome.StatusColor(s)[26] != Results.StatusStyle(s)[26];
    }
  }

  /**
   * The badge's label for a stored status agrees with the home screen's label
   * except for a breakdown, which the badge calls "Delayed".
   */
  lemma BadgeLabelAgreesButBreakdown(s: BusStatus)
    ensures StatusBadge.Label(StatusBadge.BusBadge, BusStatusText(s)) == PassengerHome.StatusLabel(s)
      <==> s != Breakdown
  {
    if s == Breakdown {
      assert PassengerHome.StatusLabel(s)[0] == 'B';
    }
  }

  /** For any status string, the map paints a bus grey exactly when its badge is grey. */
  lemma GreyOnMapIffGreyBadge(status: string)
    ensures MapView.BusColor(status) == MapView.UnknownGrey
      <==> StatusBadge.Styles(StatusBadge.BusBadge, status) == StatusBadge.Grey
  {
    MapView.BusColorsDistinguish(status);
    StatusBadge.ColoursDiffer();
  }

  /**
   * The map marker follows the bus badge's colour on every status string: green,
   * amber and red markers exactly where the badge is green, yellow and red.
   */
  lemma MarkerColourFollowsBadge(status: string)
    ensures MapView.BusColor(status) == MapView.OnTimeGreen
      <==> StatusBadge.Styles(StatusBadge.BusBadge, status) == StatusBadge.Green
    ensures MapView.BusColor(status) == MapView.DelayedAmber
      <==> StatusBadge.Styles(StatusBadge.BusBadge, status) == StatusBadge.Yellow
    ensures MapView.BusColor(status) == MapView.OvercrowdedRed
      <==> StatusBadge.Styles(StatusBadge.BusBadge, status) == StatusBadge.Red
  {
    MapView.BusColorsDistinguish(status);
    StatusBadge.ColoursDiffer();
  }

  /** A bus needs attention exactly when its pollution or maintenance badge is red. */
  lemma IssuesAreRedBadges(b: Bus)
    ensures AdminMonitor.HasIssues(b) <==>
      || StatusBadge.Styles(StatusBadge.PollutionBadge, PollutionText(b.pollutionLevel)) == StatusBadge.Red
      || StatusBadge.Styles(StatusBadge.MaintenanceBadge, MaintenanceText(b.maintenanceStatus)) == StatusBadge.Red
  {
    StatusBadge.RedMeansTrouble(b);
  }

  /** Searching for buses with the home screen's default route lists every timetable entry. */
  lemma DefaultSearchListsEverything()
    ensures Results.Filtered(PassengerHome.FindBusParams(PassengerHome.DefaultFrom, PassengerHome.DefaultTo))
      == Results.MockData
  {
    var params := PassengerHome.FindBusParams(PassengerHome.DefaultFrom, PassengerHome.DefaultTo);
    var items := Results.MockData;
    forall i | 0 <= i < |items|
      ensures Results.RouteMatch(params)(items[i])
    {
      IncludesItself(PassengerHome.DefaultFrom);
      IncludesItself(PassengerHome.DefaultTo);
    }
    FilterAll(items, Results.RouteMatch(params));
  }

  /** The three fallback buses are the first three buses of the timetable, in order. */
  lemma FallbackBusesAreTimetabled(routes: seq<Route>, now: string)
    ensures forall i | 0 <= i < 3 ::
      PassengerHome.MockNearestBuses(routes, now)[i].number == Results.MockData[i].busNumber
  {
  }

  /**
   * The home screen's two searches pass the route ends through unchanged; the
   * bus-number search lists a subsequence of what the plain route search lists, and
   * the same list when the typed number is empty.
   */
  lemma NumberSearchNarrowsRouteSearch(items: seq<Results.ResultItem>, from: string, to: string, query: string)
    ensures var byNumber := Results.FilterItems(items, PassengerHome.SearchBusNumberParams(from, to, query));
      var byRoute := Results.FilterItems(items, PassengerHome.FindBusParams(from, to));
      && IsSubseq(byNumber, byRoute)
      && (query == "" ==> byNumber == byRoute)
      && (forall item | item in byRoute && Results.NumberMatch(query)(item) :: item in byNumber)
  {
    var numberParams := PassengerHome.SearchBusNumberParams(from, to, query);
    var routeParams := PassengerHome.FindBusParams(from, to);
    assert Results.ByRoute(items, numberParams) == Results.ByRoute(items, routeParams);
    var byNumber := Results.FilterItems(items, numberParams);
    var byRoute := Results.FilterItems(items, routeParams);
    forall item | item in byRoute && Results.NumberMatch(query)(item)
      ensures item in byNumber
    {
      assert Results.Matches(numberParams, item);
      assert multiset(byNumber)[item] == multiset(items)[item];
      assert multiset(byRoute)[item] <= multiset(items)[item] by {
        FilterMultiplicity(items, Results.RouteMatch(routeParams), item);
      }
    }
    if query == "" {
      Results.EmptyNumberIsRouteSearch(items, from, to);
    }
  }

  /**
   * When no bus serves the nearest stop's route, every card on the home screen is a
   * placeholder whose id is no row of the backend; "View" on one opens a bus page
   * whose fetch finds nothing, and that page is a dead end.
   */
  lemma PlaceholderViewIsADeadEnd(userLocation: Option<Point>, stops: seq<Stop>, buses: seq<Bus>,
                                  routes: seq<Route>, dist: PassengerHome.Distance, now: string, i: nat)
    requires !PassengerHome.RouteServed(PassengerHome.NearestStop(userLocation, stops, dist), buses)
    requires i < |PassengerHome.BusesNearYou(userLocation, stops, buses, routes, dist, now)|
    ensures var id := PassengerHome.BusesNearYou(userLocation, stops, buses, routes, dist, now)[i].bus.id;
      var missing := App.State(App.BusDetails(id, App.NotFound), false);
      && id in {"mock-1", "mock-2", "mock-3"}
      && App.Run(App.Initial, [App.SelectBus(id), App.BusFetched(App.NotFound)]) == Some(missing)
      && App.DeadEnd(missing)
  {
    PassengerHome.BusesNearYouFallsBack(userLocation, stops, buses, routes, dist, now);
    var id := PassengerHome.BusesNearYou(userLocation, stops, buses, routes, dist, now)[i].bus.id;
    App.MissingBusIsADeadEnd(id);
  }
}

=== FILE: map_view.dfy ===
/**
 * The map panel: where it centres, the route line through the stops, and the
 * colour and size of each bus marker.
 */
module MapView {
  import opened Options
  import opened Records
  import opened Seqs

  /** `defaultCenter`: Kottayam, used when nothing else gives a position. */
  const DefaultCenter: Point := Point(9.5916, 76.5222)

  /**
   * `resolvedCenter`: an explicit centre wins; otherwise the first stop; otherwise the
   * first bus; otherwise the default.
   */
  function ResolvedCenter(center: Option<Point>, stops: seq<Stop>, buses: seq<Bus>): (c: Point)
    ensures center.Some? ==> c == center.value
    ensures center.None? && |stops| > 0 ==> c == StopPoint(stops[0])
    ensures center.None? && |stops| == 0 && |buses| > 0 ==> c == BusPoint(buses[0])
    ensures center.None? && |stops| == 0 && |buses| == 0 ==> c == DefaultCenter
  {
    if center.Some? then center.value
    else if |stops| > 0 then StopPoint(stops[0])
    else if |buses| > 0 then BusPoint(buses[0])
    else DefaultCenter
  }

  /**
   * The centre is always one of the positions on offer: the explicit one, a stop's,
   * a bus's, or the default.
   */
  lemma CenterIsOnOffer(center: Option<Point>, stops: seq<Stop>, buses: seq<Bus>)
    ensures var c := ResolvedCenter(center, stops, buses);
      || (center.Some? && c == center.value)
      || (exists s | s in stops :: c == StopPoint(s))
      || (exists b | b in buses :: c == BusPoint(b))
      || c == DefaultCenter
  {
    if center.None? && |stops| > 0 {
      assert stops[0] in stops;
    } else if center.None? && |buses| > 0 {
      assert buses[0] in buses;
    }
  }

  /** `routePath`: the stops' positions, one per stop and in the same order. */
  function RoutePath(stops: seq<Stop>): (path: seq<Point>)
    ensures |path| == |stops|
    ensures forall i | 0 <= i < |stops| :: path[i] == StopPoint(stops[i])
  {
    seq(|stops|, i requires 0 <= i < |stops| => StopPoint(stops[i]))
  }

  /** The path of a concatenation is the concatenation of the paths. */
  lemma RoutePathAppend(a: seq<Stop>, b: seq<Stop>)
    ensures RoutePath(a + b) == RoutePath(a) + RoutePath(b)
  {
  }

  /** The route line is drawn when asked for and there is a path to draw. */
  predicate ShowsPolyline(showRoute: bool, stops: seq<Stop>) {
    showRoute && |RoutePath(stops)| > 0
  }

  /**
   * Without an explicit centre a map of a route is centred where its line starts,
   * and the line is drawn exactly when the route has stops.
   */
  lemma RouteMapStartsAtLine(stops: seq<Stop>, buses: seq<Bus>)
    ensures ShowsPolyline(true, stops) <==> |stops| > 0
    ensures |stops| > 0 ==> ResolvedCenter(None, stops, buses) == RoutePath(stops)[0]
  {
  }

  const OnTimeGreen: string := "#10B981"
  const DelayedAmber: string := "#F59E0B"
  const OvercrowdedRed: string := "#EF4444"
  const UnknownGrey: string := "#6B7280"

  /** The three marker colours of running buses and the grey are four different colours. */
  lemma MarkerColoursDiffer()
    ensures OnTimeGreen != DelayedAmber && DelayedAmber != OvercrowdedRed && OnTimeGreen != OvercrowdedRed
    ensures OnTimeGreen != UnknownGrey && DelayedAmber != UnknownGrey && OvercrowdedRed != UnknownGrey
  {
    assert OnTimeGreen[1] != UnknownGrey[1] && DelayedAmber[1] != UnknownGrey[1];
    assert OvercrowdedRed[1] != UnknownGrey[1];
    assert OnTimeGreen[1] != DelayedAmber[1] && DelayedAmber[1] != OvercrowdedRed[1];
    assert OnTimeGreen[1] != OvercrowdedRed[1];
  }

  /**
   * `getBusColor`, over any status string: one of four colours, grey exactly for a
   * status other than the three running ones.
   */
  function BusColor(status: string): (colour: string)
    ensures colour in {OnTimeGreen, DelayedAmber, OvercrowdedRed, UnknownGrey}
    ensures colour == UnknownGrey <==> status !in {"on-time", "delayed", "overcrowded"}
  {
    MarkerColoursDiffer();
    if status == "on-time" then OnTimeGreen
    else if status == "delayed" then DelayedAmber
    else if status == "overcrowded" then OvercrowdedRed
    else UnknownGrey
  }

  /**
   * The three running statuses get three different colours, none of them grey; every
   * other string, a breakdown included, is grey.
   */
  lemma BusColorsDistinguish(status: string)
    ensures BusColor(status) == UnknownGrey <==> status !in {"on-time", "delayed", "overcrowded"}
    ensures BusColor(BusStatusText(Breakdown)) == UnknownGrey
    ensures BusColor("on-time") != BusColor("delayed") && BusColor("delayed") != BusColor("overcrowded")
    ensures BusColor("on-time") != BusColor("overcrowded")
    ensures OnTimeGreen != DelayedAmber && DelayedAmber != OvercrowdedRed && OnTimeGreen != OvercrowdedRed
  {
    MarkerColoursDiffer();
  }

  /** One bus marker as drawn. */
  datatype Marker = Marker(position: Point, radius: int, weight: int, fillColor: string)

  /** Whether the marker of `bus` is the selected one; an absent selection matches no bus. */
  predicate IsSelected(selectedBusId: Option<string>, bus: Bus) {
    selectedBusId == Some(bus.id)
  }

  /** The marker of one bus: enlarged and thicker when selected, filled by status. */
  function BusMarker(selectedBusId: Option<string>, bus: Bus): (m: Marker)
    ensures m.position == BusPoint(bus)
    ensures IsSelected(selectedBusId, bus) ==> m.radius == 12 && m.weight == 3
    ensures !IsSelected(selectedBusId, bus) ==> m.radius == 10 && m.weight == 2
    ensures m.fillColor == BusColor(BusStatusText(bus.status))
  {
    var selected := IsSelected(selectedBusId, bus);
    Marker(BusPoint(bus), if selected then 12 else 10, if selected then 3 else 2, BusColor(BusStatusText(bus.status)))
  }

  /** `buses.map(...)`: one marker per bus, in order. */
  function BusMarkers(buses: seq<Bus>, selectedBusId: Option<string>): (ms: seq<Marker>)
    ensures |ms| == |buses|
    ensures forall i | 0 <= i < |buses| :: ms[i] == BusMarker(selectedBusId, buses[i])
  {
    seq(|buses|, i requires 0 <= i < |buses| => BusMarker(selectedBusId, buses[i]))
  }

  /** Whether a marker is drawn at the selected size. */
  function Enlarged(): Marker -> bool {
    (m: Marker) => m.radius == 12
  }

  /** Bus ids are unique, as the table's key guarantees. */
  predicate UniqueIds(buses: seq<Bus>) {
    forall i, j | 0 <= i < j < |buses| :: buses[i].id != buses[j].id
  }

  /**
   * With unique ids at most one marker is enlarged, none when nothing is selected,
   * and exactly the selected bus's marker otherwise.
   */
  lemma AtMostOneEnlarged(buses: seq<Bus>, selectedBusId: Option<string>)
    requires UniqueIds(buses)
    ensures |Filter(BusMarkers(buses, selectedBusId), Enlarged())| <= 1
    ensures selectedBusId.None? ==> Filter(BusMarkers(buses, selectedBusId), Enlarged()) == []
    ensures forall i | 0 <= i < |buses| && IsSelected(selectedBusId, buses[i]) ::
      Filter(BusMarkers(buses, selectedBusId), Enlarged()) == [BusMarkers(buses, selectedBusId)[i]]
  {
    var ms := BusMarkers(buses, selectedBusId);
    assert forall i | 0 <= i < |ms| :: Enlarged()(ms[i]) <==> IsSelected(selectedBusId, buses[i]);
    FilterAtMostOne(ms, Enlarged());
    if selectedBusId.None? {
      FilterNone(ms, Enlarged());
    }
    forall i | 0 <= i < |buses| && IsSelected(selectedBusId, buses[i])
      ensures Filter(ms, Enlarged()) == [ms[i]]
    {
      FilterExactlyOne(ms, Enlarged(), i);
    }
  }
}

=== FILE: options.dfy ===
/** The optional values of the screens: TypeScript's `T | null` and optional (`?:`) properties. */
module Options {

  datatype Option<+T> = None | Some(value: T) {

    /** The carried value, or `default` when there is none (the `??` operator). */
    function GetOr(default: T): T {
      match this
      case Some(v) => v
      case None => default
    }
  }
}

=== FILE: passenger_home.dfy ===
/**
 * The rider's home screen: the stop nearest to the rider, a placeholder ETA per bus,
 * the buses serving the nearest stop's route ranked by that ETA, and the fallback
 * list shown when no bus serves it.
 */
module PassengerHome {
  import opened Options
  import opened Records
  import opened Seqs
  import opened Text
  import opened StableSort
  import opened Tailwind

  /**
   * Distance between two positions. The screen uses the haversine great-circle
   * distance; the model accepts any real-valued function in its place.
   */
  type Distance = (Point, Point) -> real

  /** The values the search form starts with. */
  const DefaultFrom: string := "City Center"
  const DefaultTo: string := "Railway Station"

  /** One step of the reduce: a stop replaces the best so far only when strictly closer. */
  function Closer(user: Point, dist: Distance, closest: Option<Stop>, stop: Stop): Option<Stop> {
    match closest
    case None => Some(stop)
    case Some(c) => if dist(user, StopPoint(stop)) < dist(user, StopPoint(c)) then Some(stop) else closest
  }

  /** The left-to-right reduce over `stops`, starting from no stop. */
  function NearestOf(user: Point, dist: Distance, stops: seq<Stop>): (r: Option<Stop>)
    ensures r.None? <==> |stops| == 0
    ensures r.Some? ==> r.value in stops
    ensures r.Some? ==> forall s | s in stops :: dist(user, StopPoint(r.value)) <= dist(user, StopPoint(s))
    decreases |stops|
  {
    if |stops| == 0 then None
    else
      var last := |stops| - 1;
      assert stops == stops[..last] + [stops[last]];
      Closer(user, dist, NearestOf(user, dist, stops[..last]), stops[last])
  }

  /** `nearestStop`: no stop without a rider position, otherwise the reduce over all stops. */
  function NearestStop(userLocation: Option<Point>, stops: seq<Stop>, dist: Distance): (r: Option<Stop>)
    ensures r.None? <==> userLocation.None? || |stops| == 0
    ensures r.Some? ==> r.value in stops
    ensures r.Some? ==> forall s | s in stops ::
      dist(userLocation.value, StopPoint(r.value)) <= dist(userLocation.value, StopPoint(s))
  {
    match userLocation
    case None => None
    case Some(user) => NearestOf(user, dist, stops)
  }

  /** Position `i` holds a closest stop, and every earlier stop is strictly farther. */
  ghost predicate IsFirstNearest(user: Point, dist: Distance, stops: seq<Stop>, i: int) {
    && 0 <= i < |stops|
    && (forall j | 0 <= j < |stops| :: dist(user, StopPoint(stops[i])) <= dist(user, StopPoint(stops[j])))
    && (forall j | 0 <= j < i :: dist(user, StopPoint(stops[j])) > dist(user, StopPoint(stops[i])))
  }

  /** The reduce returns the earliest of the closest stops. */
  lemma {:induction false} NearestOfIsFirstMinimum(user: Point, dist: Distance, stops: seq<Stop>)
    requires |stops| > 0
    ensures exists i :: IsFirstNearest(user, dist, stops, i) && NearestOf(user, dist, stops) == Some(stops[i])
    decreases |stops|
  {
    var last := |stops| - 1;
    var prefix := stops[..last];
    if last == 0 {
      assert IsFirstNearest(user, dist, stops, 0);
    } else {
      NearestOfIsFirstMinimum(user, dist, prefix);
      var i :| IsFirstNearest(user, dist, prefix, i) && NearestOf(user, dist, prefix) == Some(prefix[i]);
      FirstNearestExtends(user, dist, stops, i);
    }
  }

  /** Appending a stop keeps the earliest closest stop unless the new one is strictly closer. */
  lemma FirstNearestExtends(user: Point, dist: Distance, stops: seq<Stop>, i: int)
    requires |stops| > 1 && IsFirstNearest(user, dist, stops[..|stops| - 1], i)
    ensures var last := |stops| - 1;
      if dist(user, StopPoint(stops[last])) < dist(user, StopPoint(stops[i]))
      then IsFirstNearest(user, dist, stops, last)
      else IsFirstNearest(user, dist, stops, i)
  {
    var last := |stops| - 1;
    assert forall j | 0 <= j < last :: stops[..last][j] == stops[j];
  }

  /**
   * Ties go to the earliest stop: when the rider's position is known and there are
   * stops, the result is the stop at the unique position that is closest with every
   * earlier stop strictly farther.
   */
  lemma NearestStopBreaksTiesByOrder(userLocation: Option<Point>, stops: seq<Stop>, dist: Distance)
    requires userLocation.Some? && |stops| > 0
    ensures exists i :: IsFirstNearest(userLocation.value, dist, stops, i)
    ensures forall i | IsFirstNearest(userLocation.value, dist, stops, i) ::
      NearestStop(userLocation, stops, dist) == Some(stops[i])
  {
    NearestOfIsFirstMinimum(userLocation.value, dist, stops);
  }

  /** `getEtaMinutes`: the code-unit sum of the bus number, modulo 15, plus 2. */
  function EtaMinutes(bus: Bus): (eta: int)
    ensures 2 <= eta <= 16
  {
    CodeUnitSum(bus.number) % 15 + 2
  }

  /** The ETA is a function of the bus number alone. */
  lemma EtaDependsOnlyOnNumber(a: Bus, b: Bus)
    requires a.number == b.number
    ensures EtaMinutes(a) == EtaMinutes(b)
  {
  }

  /** Bus numbers made of the same characters in any order get the same ETA. */
  lemma EtaIgnoresCharacterOrder(a: Bus, b: Bus)
    requires multiset(a.number) == multiset(b.number)
    ensures EtaMinutes(a) == EtaMinutes(b)
  {
    CodeUnitSumPermutation(a.number, b.number);
  }

  /** A bus with its ETA in minutes. */
  datatype Entry = Entry(bus: Bus, eta: int)

  function EntryEta(e: Entry): int {
    e.eta
  }

  function WithEta(bus: Bus): Entry {
    Entry(bus, EtaMinutes(bus))
  }

  /** `.map((bus) => ({ bus, eta: getEtaMinutes(bus) }))`. */
  function EntriesFor(buses: seq<Bus>): seq<Entry> {
    seq(|buses|, i requires 0 <= i < |buses| => WithEta(buses[i]))
  }

  /** Each bus's entry occurs exactly as often as the bus, and nothing else occurs. */
  lemma {:induction false} EntriesForMultiplicity(buses: seq<Bus>, e: Entry)
    ensures multiset(EntriesFor(buses))[e] == if e.eta == EtaMinutes(e.bus) then multiset(buses)[e.bus] else 0
    decreases |buses|
  {
    if |buses| > 0 {
      EntriesForMultiplicity(buses[1..], e);
      assert EntriesFor(buses) == [WithEta(buses[0])] + EntriesFor(buses[1..]);
      assert buses == [buses[0]] + buses[1..];
    }
  }

  /** The bus serves the given route. */
  function OnRoute(routeId: string): Bus -> bool {
    (b: Bus) => b.routeId == routeId
  }

  /** The buses of the route with their ETAs, before ranking. */
  function RouteEntries(routeId: string, buses: seq<Bus>): seq<Entry> {
    EntriesFor(Filter(buses, OnRoute(routeId)))
  }

  /** An entry of the route's buses carries a bus of `buses` on that route, and its ETA. */
  lemma RouteEntryFacts(routeId: string, buses: seq<Bus>, e: Entry)
    requires e in multiset(RouteEntries(routeId, buses))
    ensures e.bus in buses && e.bus.routeId == routeId && e.eta == EtaMinutes(e.bus)
  {
    var filtered := Filter(buses, OnRoute(routeId));
    EntriesForMultiplicity(filtered, e);
    assert e.bus in multiset(filtered);
  }

  /**
   * `nearbyBusEntries`: nothing without a nearest stop; otherwise the buses on the
   * nearest stop's route with their ETAs, stably sorted by ETA.
   */
  function NearbyBusEntries(nearest: Option<Stop>, buses: seq<Bus>): (r: seq<Entry>)
    ensures nearest.None? ==> r == []
    ensures nearest.Some? ==> forall e | e in r ::
      e.bus in buses && e.bus.routeId == nearest.value.routeId && e.eta == EtaMinutes(e.bus)
    ensures nearest.Some? ==> forall b ::
      multiset(r)[WithEta(b)] == if b.routeId == nearest.value.routeId then multiset(buses)[b] else 0
    ensures SortedBy(r, EntryEta)
    ensures nearest.Some? ==> forall k ::
      KeyClass(r, EntryEta, k) == KeyClass(RouteEntries(nearest.value.routeId, buses), EntryEta, k)
  {
    match nearest
    case None => []
    case Some(stop) =>
      var r := Sort(RouteEntries(stop.routeId, buses), EntryEta);
      RankingFacts(stop.routeId, buses, r);
      r
  }

  /** What ranking the route's buses guarantees. */
  lemma RankingFacts(routeId: string, buses: seq<Bus>, r: seq<Entry>)
    requires r == Sort(RouteEntries(routeId, buses), EntryEta)
    ensures forall e | e in r :: e.bus in buses && e.bus.routeId == routeId && e.eta == EtaMinutes(e.bus)
    ensures forall b :: multiset(r)[WithEta(b)] == if b.routeId == routeId then multiset(buses)[b] else 0
    ensures forall k :: KeyClass(r, EntryEta, k) == KeyClass(RouteEntries(routeId, buses), EntryEta, k)
  {
    var entries := RouteEntries(routeId, buses);
    forall e | e in r
      ensures e.bus in buses && e.bus.routeId == routeId && e.eta == EtaMinutes(e.bus)
    {
      assert e in multiset(r);
      RouteEntryFacts(routeId, buses, e);
    }
    forall b
      ensures multiset(r)[WithEta(b)] == if b.routeId == routeId then multiset(buses)[b] else 0
    {
      EntriesForMultiplicity(Filter(buses, OnRoute(routeId)), WithEta(b));
      FilterMultiplicity(buses, OnRoute(routeId), b);
    }
    forall k
      ensures KeyClass(r, EntryEta, k) == KeyClass(entries, EntryEta, k)
    {
      SortIsStable(entries, EntryEta, k);
    }
  }

  /** The route id a placeholder bus takes: the id of the route at that position, if any. */
  function MockRouteId(routes: seq<Route>, i: nat): string {
    if i < |routes| then routes[i].id else "mock-route"
  }

  /** `mockNearestBuses`, stamped with the time `now` the screen rendered at. */
  function MockNearestBuses(routes: seq<Route>, now: string): seq<Bus> {
    [ Bus("mock-1", "KL-07-101", MockRouteId(routes, 0), 0.0, 0.0, OnTime, None, Low, Ok, now, now),
      Bus("mock-2", "KL-07-202", MockRouteId(routes, 1), 0.0, 0.0, Delayed, None, Low, Ok, now, now),
      Bus("mock-3", "KL-07-303", MockRouteId(routes, 2), 0.0, 0.0, Overcrowded, None, Low, Ok, now, now) ]
  }

  /** `fallbackEntries`: the three placeholder buses, each with its ETA. */
  function FallbackEntries(routes: seq<Route>, now: string): (r: seq<Entry>)
    ensures |r| == 3
    ensures forall i | 0 <= i < 3 :: r[i] == WithEta(MockNearestBuses(routes, now)[i])
  {
    var mocks := MockNearestBuses(routes, now);
    assert mocks[..3] == mocks;
    EntriesFor(mocks[..3])
  }

  /** The placeholder ETAs. */
  lemma MockEtas(routes: seq<Route>, now: string)
    ensures var mocks := MockNearestBuses(routes, now);
      EtaMinutes(mocks[0]) == 12 && EtaMinutes(mocks[1]) == 14 && EtaMinutes(mocks[2]) == 16
  {
    MockNumberSums();
    MockResidues();
  }

  /** The fallback ETAs are 12, 14 and 16 minutes. */
  lemma FallbackEtas(routes: seq<Route>, now: string)
    ensures var r := FallbackEntries(routes, now);
      r[0].eta == 12 && r[1].eta == 14 && r[2].eta == 16
  {
    MockEtas(routes, now);
  }

  /** The fallback list is already in ETA order, and every entry carries its bus's ETA. */
  lemma FallbackIsRanked(routes: seq<Route>, now: string)
    ensures SortedBy(FallbackEntries(routes, now), EntryEta)
    ensures forall e | e in FallbackEntries(routes, now) :: e.eta == EtaMinutes(e.bus)
  {
    FallbackIsSorted(routes, now);
    EntriesCarryEtas(FallbackEntries(routes, now), MockNearestBuses(routes, now));
  }

  lemma FallbackIsSorted(routes: seq<Route>, now: string)
    ensures SortedBy(FallbackEntries(routes, now), EntryEta)
  {
    FallbackEtas(routes, now);
    SortedOfThree(FallbackEntries(routes, now));
  }

  lemma SortedOfThree(r: seq<Entry>)
    requires |r| == 3 && r[0].eta <= r[1].eta <= r[2].eta
    ensures SortedBy(r, EntryEta)
  {
  }

  /** Entries built with `WithEta` carry their bus's ETA. */
  lemma EntriesCarryEtas(r: seq<Entry>, buses: seq<Bus>)
    requires |r| <= |buses|
    requires forall i | 0 <= i < |r| :: r[i] == WithEta(buses[i])
    ensures forall e | e in r :: e.eta == EtaMinutes(e.bus)
  {
  }

  /** The code-unit sums of the placeholder bus numbers. */
  lemma MockNumberSums()
    ensures CodeUnitSum("KL-07-101") == 490
    ensures CodeUnitSum("KL-07-202") == 492
    ensures CodeUnitSum("KL-07-303") == 494
  {
    var prefix := "KL-07-";
    PrefixSum();
    ThreeCharSum('1', '0', '1');
    ThreeCharSum('2', '0', '2');
    ThreeCharSum('3', '0', '3');
    CodeUnitSumAppend(prefix, "101");
    CodeUnitSumAppend(prefix, "202");
    CodeUnitSumAppend(prefix, "303");
    assert prefix + "101" == "KL-07-101";
    assert prefix + "202" == "KL-07-202";
    assert prefix + "303" == "KL-07-303";
  }

  /** The residues of those sums modulo 15. */
  lemma MockResidues()
    ensures 490 % 15 == 10 && 492 % 15 == 12 && 494 % 15 == 14
  {
  }

  /** The code-unit sum of the common prefix of the placeholder numbers. */
  lemma PrefixSum()
    ensures CodeUnitSum("KL-07-") == 344
  {
    ThreeCharSum('K', 'L', '-');
    ThreeCharSum('0', '7', '-');
    CodeUnitSumAppend("KL-", "07-");
    assert "KL-" + "07-" == "KL-07-";
  }

  /** The code-unit sum of a three-character string below U+10000. */
  lemma ThreeCharSum(a: char, b: char, c: char)
    requires a as int < 0x1_0000 && b as int < 0x1_0000 && c as int < 0x1_0000
    ensures CodeUnitSum([a, b, c]) == a as int + b as int + c as int
  {
    var s := [a, b, c];
    assert s[1..] == [b, c];
    assert s[1..][1..] == [c];
    assert s[1..][1..][1..] == [];
    assert CodeUnitSum([c]) == c as int;
    assert CodeUnitSum([b, c]) == b as int + c as int;
  }

  /** `availableEntries`: the ranked buses, or the fallback when there are none, cut to five. */
  function AvailableEntries(nearby: seq<Entry>, fallback: seq<Entry>): (r: seq<Entry>)
    ensures |r| <= 5
    ensures |nearby| > 0 ==> 0 < |r| && r <= nearby && (|r| < 5 ==> r == nearby)
    ensures |nearby| == 0 ==> r <= fallback && (|r| < 5 ==> r == fallback)
    ensures forall e | e in r :: if |nearby| > 0 then e in nearby else e in fallback
  {
    var list := if |nearby| > 0 then nearby else fallback;
    list[..if |list| < 5 then |list| else 5]
  }

  /** The buses the home screen lists under "Current Available Buses Near You". */
  function BusesNearYou(userLocation: Option<Point>, stops: seq<Stop>, buses: seq<Bus>,
                        routes: seq<Route>, dist: Distance, now: string): (r: seq<Entry>)
    ensures 1 <= |r| <= 5
    ensures NearestStop(userLocation, stops, dist).None? ==> r == FallbackEntries(routes, now)
    ensures forall e | e in r :: e.eta == EtaMinutes(e.bus)
  {
    var nearby := NearbyBusEntries(NearestStop(userLocation, stops, dist), buses);
    var fallback := FallbackEntries(routes, now);
    EntriesCarryEtas(fallback, MockNearestBuses(routes, now));
    AvailableEntries(nearby, fallback)
  }

  /** Some bus serves the route of the nearest stop. */
  ghost predicate RouteServed(nearest: Option<Stop>, buses: seq<Bus>) {
    nearest.Some? && exists b | b in buses :: b.routeId == nearest.value.routeId
  }

  /** A prefix of a ranked list is ranked. */
  lemma PrefixIsRanked(r: seq<Entry>, list: seq<Entry>)
    requires r <= list
    requires SortedBy(list, EntryEta)
    requires forall e | e in list :: e.eta == EtaMinutes(e.bus)
    ensures SortedBy(r, EntryEta)
    ensures forall e | e in r :: e.eta == EtaMinutes(e.bus)
  {
    forall e | e in r
      ensures e in list
    {
      var i :| 0 <= i < |r| && r[i] == e;
      assert list[i] == e;
    }
  }

  /**
   * The listed buses are never empty and hold at most five entries, in ETA order,
   * each with its bus's ETA: the "No buses nearby" message never shows.
   */
  lemma {:induction false} BusesNearYouShape(userLocation: Option<Point>, stops: seq<Stop>, buses: seq<Bus>,
                                             routes: seq<Route>, dist: Distance, now: string)
    ensures var r := BusesNearYou(userLocation, stops, buses, routes, dist, now);
      && 1 <= |r| <= 5
      && SortedBy(r, EntryEta)
      && (forall e | e in r :: e.eta == EtaMinutes(e.bus))
  {
    var nearest := NearestStop(userLocation, stops, dist);
    var nearby := NearbyBusEntries(nearest, buses);
    var fallback := FallbackEntries(routes, now);
    var r := AvailableEntries(nearby, fallback);
    if |nearby| > 0 {
      assert nearest.Some?;
      PrefixIsRanked(r, nearby);
    } else {
      FallbackIsRanked(routes, now);
      PrefixIsRanked(r, fallback);
    }
  }

  /**
   * When a bus serves the nearest stop's route, the list holds only such buses, and
   * the ones listed have ETAs no later than any of the route's buses left out.
   */
  lemma {:induction false} BusesNearYouPrefersEarliest(userLocation: Option<Point>, stops: seq<Stop>, buses: seq<Bus>,
                                                       routes: seq<Route>, dist: Distance, now: string)
    requires RouteServed(NearestStop(userLocation, stops, dist), buses)
    ensures var r := BusesNearYou(userLocation, stops, buses, routes, dist, now);
      var route := NearestStop(userLocation, stops, dist).value.routeId;
      && (forall e | e in r :: e.bus in buses && e.bus.routeId == route)
      && (forall e, b | e in r && b in buses && b.routeId == route && WithEta(b) !in r :: e.eta <= EtaMinutes(b))
  {
    var nearest := NearestStop(userLocation, stops, dist);
    var route := nearest.value.routeId;
    var nearby := NearbyBusEntries(nearest, buses);
    var r := AvailableEntries(nearby, FallbackEntries(routes, now));
    var b :| b in buses && b.routeId == route;
    assert multiset(nearby)[WithEta(b)] == multiset(buses)[b];
    assert WithEta(b) in multiset(nearby);
    assert r <= nearby;
    PrefixIsEarliest(r, nearby);
    forall b' | b' in buses && b'.routeId == route
      ensures WithEta(b') in nearby
    {
      assert multiset(nearby)[WithEta(b')] == multiset(buses)[b'];
      assert WithEta(b') in multiset(nearby);
    }
  }

  /** Every entry of a prefix of a ranked list is due no later than any entry left out. */
  lemma PrefixIsEarliest(r: seq<Entry>, list: seq<Entry>)
    requires r <= list
    requires SortedBy(list, EntryEta)
    ensures forall e | e in r :: e in list
    ensures forall e, x | e in r && x in list && x !in r :: e.eta <= x.eta
  {
    forall e, x | e in r && x in list && x !in r
      ensures e.eta <= x.eta
    {
      var i :| 0 <= i < |r| && r[i] == e;
      var j :| 0 <= j < |list| && list[j] == x;
      assert list[i] == e;
    }
    forall e | e in r
      ensures e in list
    {
      var i :| 0 <= i < |r| && r[i] == e;
      assert list[i] == e;
    }
  }

  /** When no bus serves the nearest stop's route, the list is exactly the three placeholders. */
  lemma BusesNearYouFallsBack(userLocation: Option<Point>, stops: seq<Stop>, buses: seq<Bus>,
                              routes: seq<Route>, dist: Distance, now: string)
    requires !RouteServed(NearestStop(userLocation, stops, dist), buses)
    ensures BusesNearYou(userLocation, stops, buses, routes, dist, now) == FallbackEntries(routes, now)
  {
  }

  /** `getStatusLabel`: the stored status written as a title. */
  function StatusLabel(s: BusStatus): (title: string)
    ensures title == Titled(BusStatusText(s))
  {
    match s
    case OnTime => "On Time"
    case Delayed => "Delayed"
    case Overcrowded => "Overcrowded"
    case Breakdown => "Breakdown"
  }

  /**
   * `getStatusColor`: a pill whose hue runs green, orange, yellow, red from on time to
   * breakdown, with the text at shade 700.
   */
  function StatusColor(s: BusStatus): (style: string)
    ensures s == OnTime ==> style == Pill(GreenHue, "700")
    ensures s == Delayed ==> style == Pill(OrangeHue, "700")
    ensures s == Overcrowded ==> style == Pill(YellowHue, "700")
    ensures s == Breakdown ==> style == Pill(RedHue, "700")
  {
    match s
    case OnTime => GreenPill(); "bg-green-100 text-green-700"
    case Delayed => OrangePill(); "bg-orange-100 text-orange-700"
    case Overcrowded => YellowPill(); "bg-yellow-100 text-yellow-700"
    case Breakdown => RedPill(); "bg-red-100 text-red-700"
  }

  /** `handleFindBus`: a route search without a bus number. */
  function FindBusParams(from: string, to: string): (p: SearchParams)
    ensures p.from == from && p.to == to
    ensures p.busNumber.None?
  {
    SearchParams(from, to, None)
  }

  /** `handleSearchBusNumber`: a route search that also carries the typed bus number. */
  function SearchBusNumberParams(from: string, to: string, query: string): (p: SearchParams)
    ensures p.from == from && p.to == to
    ensures p.busNumber == Some(query)
  {
    SearchParams(from, to, Some(query))
  }
}

=== FILE: records.dfy ===
/**
 * The rows the screens read from the backend's `routes`, `stops` and `buses`
 * tables, and the search parameters passed between screens. Field names follow
 * the tables' columns in camel case (`route_id` becomes `routeId`); timestamps
 * are kept as the opaque strings the backend returns.
 */
module Records {
  import opened Options

  /** A bus's operational status (`Bus['status']`). */
  datatype BusStatus = OnTime | Delayed | Overcrowded | Breakdown

  /** A bus's pollution level (`Bus['pollution_level']`). */
  datatype PollutionLevel = Low | Medium | High

  /** A bus's maintenance status (`Bus['maintenance_status']`). */
  datatype MaintenanceStatus = Ok | NeedsService

  datatype Route = Route(id: string, name: string, description: string, color: string, createdAt: string)

  datatype Stop = Stop(
    id: string,
    routeId: string,
    name: string,
    lat: real,
    lng: real,
    sequence: int,
    createdAt: string)

  datatype Bus = Bus(
    id: string,
    number: string,
    routeId: string,
    currentLat: real,
    currentLng: real,
    status: BusStatus,
    nextStopId: Option<string>,
    pollutionLevel: PollutionLevel,
    maintenanceStatus: MaintenanceStatus,
    updatedAt: string,
    createdAt: string)

  /** A geographic position, latitude and longitude in degrees. */
  datatype Point = Point(lat: real, lng: real)

  /** The parameters of a route search; `busNumber` is absent for a plain route search. */
  datatype SearchParams = SearchParams(from: string, to: string, busNumber: Option<string>)

  function StopPoint(s: Stop): Point {
    Point(s.lat, s.lng)
  }

  function BusPoint(b: Bus): Point {
    Point(b.currentLat, b.currentLng)
  }

  /** The string the backend stores for a bus status. */
  function BusStatusText(s: BusStatus): string {
    match s
    case OnTime => "on-time"
    case Delayed => "delayed"
    case Overcrowded => "overcrowded"
    case Breakdown => "breakdown"
  }

  /** The string the backend stores for a pollution level. */
  function PollutionText(p: PollutionLevel): string {
    match p
    case Low => "low"
    case Medium => "medium"
    case High => "high"
  }

  /** The string the backend stores for a maintenance status. */
  function MaintenanceText(m: MaintenanceStatus): string {
    match m
    case Ok => "ok"
    case NeedsService => "needs-service"
  }
}

=== FILE: results.dfy ===
/**
 * The search results screen: a fixed list of timetable entries filtered by the
 * route searched for and, when one was typed, by the bus number.
 */
module Results {
  import opened Options
  import opened Records
  import opened Seqs
  import opened Text
  import opened Tailwind

  /** One timetable entry of the results list. Times and the ETA are display strings. */
  datatype ResultItem = ResultItem(
    id: string,
    busNumber: string,
    routeFrom: string,
    routeTo: string,
    startTime: string,
    endTime: string,
    eta: string,
    status: BusStatus)

  /**
   * `statusStyles`, total over the four statuses: a pill whose hue runs green, orange,
   * yellow, red from on time to breakdown, with the text at shade 700 except the
   * overcrowded pill's, which is 800.
   */
  function StatusStyle(s: BusStatus): (style: string)
    ensures s == OnTime ==> style == Pill(GreenHue, "700")
    ensures s == Delayed ==> style == Pill(OrangeHue, "700")
    ensures s == Overcrowded ==> style == Pill(YellowHue, "800")
    ensures s == Breakdown ==> style == Pill(RedHue, "700")
  {
    match s
    case OnTime => GreenPill(); "bg-green-100 text-green-700"
    case Delayed => OrangePill(); "bg-orange-100 text-orange-700"
    case Overcrowded => DarkYellowPill(); "bg-yellow-100 text-yellow-800"
    case Breakdown => RedPill(); "bg-red-100 text-red-700"
  }

  /** `statusLabels`, total over the four statuses: the stored status written as a title. */
  function StatusLabel(s: BusStatus): (title: string)
    ensures title == Titled(BusStatusText(s))
  {
    match s
    case OnTime => "On Time"
    case Delayed => "Delayed"
    case Overcrowded => "Overcrowded"
    case Breakdown => "Breakdown"
  }

  /** Different statuses get different labels and different styles. */
  lemma StatusTablesDistinguish(s: BusStatus, t: BusStatus)
    requires s != t
    ensures StatusLabel(s) != StatusLabel(t)
    ensures StatusStyle(s) != StatusStyle(t)
  {
    assert StatusLabel(s)[0] != StatusLabel(t)[0] || StatusLabel(s)[1] != StatusLabel(t)[1];
    assert StatusStyle(s)[3] != StatusStyle(t)[3];
  }

  /** `mockData`: the four entries on the City Center to Railway Station route. */
  const MockData: seq<ResultItem> := [
    ResultItem("r1", "KL-07-101", "City Center", "Railway Station", "06:15", "07:10", "12 min", OnTime),
    ResultItem("r2", "KL-07-202", "City Center", "Railway Station", "06:45", "07:40", "24 min", Delayed),
    ResultItem("r3", "KL-07-303", "City Center", "Railway Station", "07:10", "08:00", "35 min", Overcrowded),
    ResultItem("r4", "KL-07-404", "City Center", "Railway Station", "07:30", "08:25", "48 min", Breakdown)
  ]

  /**
   * The bus-number term the second filter uses: none when the parameter is absent or
   * empty, both of which are falsy in the source's `!params.busNumber` test.
   */
  function BusNumberTerm(params: SearchParams): (term: Option<string>)
    ensures term.Some? <==> params.busNumber.Some? && |params.busNumber.value| > 0
    ensures term.Some? ==> term.value == params.busNumber.value
  {
    match params.busNumber
    case None => None
    case Some(n) => if n == "" then None else Some(n)
  }

  /** The first filter's callback: both route ends contain the searched names, ignoring case. */
  function RouteMatch(params: SearchParams): ResultItem -> bool {
    (item: ResultItem) =>
      IncludesIgnoringCase(item.routeFrom, params.from) && IncludesIgnoringCase(item.routeTo, params.to)
  }

  /** The second filter's callback: the bus number contains the term, ignoring case. */
  function NumberMatch(term: string): ResultItem -> bool {
    (item: ResultItem) => IncludesIgnoringCase(item.busNumber, term)
  }

  /** `byRoute`. */
  function ByRoute(items: seq<ResultItem>, params: SearchParams): seq<ResultItem> {
    Filter(items, RouteMatch(params))
  }

  /** Whether an item satisfies every test the search applies. */
  predicate Matches(params: SearchParams, item: ResultItem) {
    && RouteMatch(params)(item)
    && (BusNumberTerm(params).Some? ==> NumberMatch(BusNumberTerm(params).value)(item))
  }

  /**
   * `filtered`, over any item list: an order-preserving subsequence of the items in
   * which every entry matches the search; every matching item is kept with its full
   * multiplicity; without a term it is the route-filtered list, and with one it is a
   * subsequence of that list.
   */
  function FilterItems(items: seq<ResultItem>, params: SearchParams): (r: seq<ResultItem>)
    ensures IsSubseq(r, items)
    ensures IsSubseq(r, ByRoute(items, params))
    ensures BusNumberTerm(params).None? ==> r == ByRoute(items, params)
    ensures forall item | item in r :: Matches(params, item)
    ensures forall item | Matches(params, item) :: multiset(r)[item] == multiset(items)[item]
  {
    var byRoute := ByRoute(items, params);
    FilterIsSubseq(items, RouteMatch(params));
    match BusNumberTerm(params)
    case None =>
      FilterKeepsMatches(items, params);
      SubseqOfSelf(byRoute);
      byRoute
    case Some(term) =>
      FilterIsSubseq(byRoute, NumberMatch(term));
      FilterFilter(items, RouteMatch(params), NumberMatch(term));
      SubseqTransitive(Filter(byRoute, NumberMatch(term)), byRoute, items);
      FilterKeepsMatches(items, params);
      Filter(byRoute, NumberMatch(term))
  }

  /** The search's filters, composed, keep every matching item as often as it occurs. */
  lemma FilterKeepsMatches(items: seq<ResultItem>, params: SearchParams)
    ensures BusNumberTerm(params).None? ==>
      forall item | Matches(params, item) :: multiset(ByRoute(items, params))[item] == multiset(items)[item]
    ensures BusNumberTerm(params).Some? ==>
      forall item | Matches(params, item) ::
        multiset(Filter(ByRoute(items, params), NumberMatch(BusNumberTerm(params).value)))[item]
          == multiset(items)[item]
  {
    forall item | Matches(params, item)
      ensures multiset(ByRoute(items, params))[item] == multiset(items)[item]
    {
      FilterMultiplicity(items, RouteMatch(params), item);
    }
    if BusNumberTerm(params).Some? {
      var term := BusNumberTerm(params).value;
      forall item | Matches(params, item)
        ensures multiset(Filter(ByRoute(items, params), NumberMatch(term)))[item] == multiset(items)[item]
      {
        FilterMultiplicity(ByRoute(items, params), NumberMatch(term), item);
      }
    }
  }

  /** `filtered` on the screen: the search applied to the fixed list. */
  function Filtered(params: SearchParams): (r: seq<ResultItem>)
    ensures |r| <= |MockData|
    ensures IsSubseq(r, MockData)
    ensures forall item | item in r :: Matches(params, item)
    ensures forall item | item in MockData && Matches(params, item) :: item in r
  {
    var r := FilterItems(MockData, params);
    forall item | item in MockData && Matches(params, item)
      ensures item in r
    {
      assert multiset(r)[item] == multiset(MockData)[item] > 0;
    }
    r
  }

  /** "No buses found for this day." shows exactly when nothing matched. */
  predicate ShowsNoResults(params: SearchParams) {
    |Filtered(params)| == 0
  }

  /** Empty route names match every item, so an empty search lists everything. */
  lemma EmptyTermsMatchAll(items: seq<ResultItem>, params: SearchParams)
    requires params.from == "" && params.to == ""
    requires BusNumberTerm(params).None?
    ensures FilterItems(items, params) == items
  {
    forall i | 0 <= i < |items|
      ensures RouteMatch(params)(items[i])
    {
      IncludesEmpty(items[i].routeFrom);
      IncludesEmpty(items[i].routeTo);
    }
    FilterAll(items, RouteMatch(params));
  }

  /** Searching with an empty bus number gives the same list as a plain route search. */
  lemma EmptyNumberIsRouteSearch(items: seq<ResultItem>, from: string, to: string)
    ensures FilterItems(items, SearchParams(from, to, Some(""))) == FilterItems(items, SearchParams(from, to, None))
  {
  }
}

=== FILE: route_tracking.dfy ===
/**
 * The route timetable: scheduled and actual times of each stop, counted in minutes
 * from an opaque base time, and the Start / End / connector decorations of the
 * stop list.
 */
module RouteTracking {
  import opened Records
  import opened Seqs

  /** What `getTimesForStop` returns, with times as minute offsets from the epoch of `base`. */
  datatype StopTimes = StopTimes(scheduled: int, actual: int, delayMinutes: int)

  /** The delay as the source writes it: an even-index part plus a non-first part. */
  function DelayMinutes(index: nat): (d: int)
    ensures d == if index == 0 then 2 else if index % 2 == 1 then 1 else 3
  {
    (if index % 2 == 0 then 2 else 0) + (if index == 0 then 0 else 1)
  }

  /**
   * `getTimesForStop`: the schedule runs six minutes per stop from `base`; the actual
   * time adds the delay, which is never zero, so every stop runs late.
   */
  function TimesForStop(base: int, index: nat): (t: StopTimes)
    ensures t.delayMinutes >= 1
    ensures t.actual > t.scheduled
    ensures t.actual - t.scheduled == t.delayMinutes
    ensures t.scheduled == base <==> index == 0
    ensures t.scheduled == base + 6 * index
    ensures t.delayMinutes == DelayMinutes(index)
  {
    var scheduled := base + index * 6;
    var delay := DelayMinutes(index);
    StopTimes(scheduled, scheduled + delay, delay)
  }

  /** Scheduled and actual times both strictly increase along the route. */
  lemma {:induction false} TimesIncrease(base: int, i: nat, j: nat)
    requires i < j
    ensures TimesForStop(base, i).scheduled < TimesForStop(base, j).scheduled
    ensures TimesForStop(base, i).actual < TimesForStop(base, j).actual
    ensures TimesForStop(base, j).scheduled - TimesForStop(base, i).scheduled == 6 * (j - i)
  {
    var ti, tj := TimesForStop(base, i), TimesForStop(base, j);
    assert ti.scheduled == base + 6 * i && tj.scheduled == base + 6 * j;
    assert ti.actual <= ti.scheduled + 3;
  }

  /** The two styles of the actual-time cell. */
  datatype DelayStyle = OnTimeGreen | LateRed

  /** The actual-time cell is red when the delay is positive, green otherwise. */
  function ActualStyle(t: StopTimes): DelayStyle {
    if t.delayMinutes > 0 then LateRed else OnTimeGreen
  }

  /** The "Delay: n min" note appears when the delay is positive. */
  predicate ShowsDelayNote(t: StopTimes) {
    t.delayMinutes > 0
  }

  /** The green branch of the actual-time cell is dead: every stop is shown late, with a note. */
  lemma NeverOnTime(base: int, index: nat)
    ensures ActualStyle(TimesForStop(base, index)) == LateRed
    ensures ShowsDelayNote(TimesForStop(base, index))
  {
  }

  /** One rendered row of the stop list. */
  datatype StopRow = StopRow(
    stop: Stop,
    number: nat,
    times: StopTimes,
    connector: bool,
    start: bool,
    end: bool)

  /**
   * The rows `stops.map` renders: the badge number is the index plus one, the
   * connector line runs below every row but the last, "Start" marks index 0 and
   * "End" marks the last index.
   */
  function StopRows(stops: seq<Stop>, base: int): (rows: seq<StopRow>)
    ensures |rows| == |stops|
    ensures forall i | 0 <= i < |rows| :: rows[i].stop == stops[i] && rows[i].number == i + 1
    ensures forall i | 0 <= i < |rows| :: rows[i].times == TimesForStop(base, i)
    ensures forall i | 0 <= i < |rows| :: rows[i].start <==> i == 0
    ensures forall i | 0 <= i < |rows| :: rows[i].end <==> i == |rows| - 1
    ensures forall i | 0 <= i < |rows| :: rows[i].connector <==> !rows[i].end
  {
    seq(|stops|, i requires 0 <= i < |stops| =>
      StopRow(stops[i], i + 1, TimesForStop(base, i),
              i < |stops| - 1, i == 0, i == |stops| - 1))
  }

  /** Selectors for the two labels. */
  function IsStart(): StopRow -> bool {
    (row: StopRow) => row.start
  }

  function IsEnd(): StopRow -> bool {
    (row: StopRow) => row.end
  }

  /**
   * A non-empty route has exactly one "Start" row, the first, and exactly one
   * "End" row, the last; on a one-stop route they are the same row.
   */
  lemma StartAndEndAreUnique(stops: seq<Stop>, base: int)
    requires |stops| > 0
    ensures Filter(StopRows(stops, base), IsStart()) == [StopRows(stops, base)[0]]
    ensures Filter(StopRows(stops, base), IsEnd()) == [StopRows(stops, base)[|stops| - 1]]
    ensures |stops| == 1 ==> StopRows(stops, base)[0].start && StopRows(stops, base)[0].end
  {
    var rows := StopRows(stops, base);
    FilterExactlyOne(rows, IsStart(), 0);
    FilterExactlyOne(rows, IsEnd(), |rows| - 1);
  }
}

=== FILE: seqs.dfy ===
/**
 * Order-preserving selection from a sequence, as `Array.prototype.filter` performs it,
 * and the facts about it that the screens rely on.
 */
module Seqs {

  /** The elements of `xs` that satisfy `p`, in their original order. */
  function Filter<T>(xs: seq<T>, p: T -> bool): (r: seq<T>)
    ensures |r| <= |xs|
    ensures forall y | y in r :: y in xs && p(y)
    decreases |xs|
  {
    if |xs| == 0 then []
    else if p(xs[0]) then [xs[0]] + Filter(xs[1..], p)
    else Filter(xs[1..], p)
  }

  /** The negation of a predicate. */
  function Not<T>(p: T -> bool): T -> bool {
    x => !p(x)
  }

  /** The conjunction of two predicates. */
  function And<T>(p: T -> bool, q: T -> bool): T -> bool {
    x => p(x) && q(x)
  }

  /**
   * `sub` is `xs` with some elements deleted: `idx[k]` is the position in `xs`
   * of `sub[k]`, and the positions strictly increase.
   */
  ghost predicate EmbedsAt<T>(sub: seq<T>, xs: seq<T>, idx: seq<int>) {
    && |idx| == |sub|
    && (forall k | 0 <= k < |idx| :: 0 <= idx[k] < |xs| && sub[k] == xs[idx[k]])
    && (forall k, l | 0 <= k < l < |idx| :: idx[k] < idx[l])
  }

  /** `sub` is an order-preserving subsequence of `xs`. */
  ghost predicate IsSubseq<T>(sub: seq<T>, xs: seq<T>) {
    exists idx :: EmbedsAt(sub, xs, idx)
  }

  /** Every position moved one to the right. */
  ghost function Shift(s: seq<int>): seq<int> {
    seq(|s|, k requires 0 <= k < |s| => s[k] + 1)
  }

  /** The positions of `xs` whose elements `Filter` keeps. */
  ghost function KeptIndices<T>(xs: seq<T>, p: T -> bool): seq<int>
    decreases |xs|
  {
    if |xs| == 0 then []
    else if p(xs[0]) then [0] + Shift(KeptIndices(xs[1..], p))
    else Shift(KeptIndices(xs[1..], p))
  }

  /** Positions in the tail of a sequence, moved one right, are positions in the whole. */
  lemma ShiftEmbeds<T>(sub: seq<T>, xs: seq<T>, idx: seq<int>)
    requires |xs| > 0 && EmbedsAt(sub, xs[1..], idx)
    ensures EmbedsAt(sub, xs, Shift(idx))
    ensures forall k | 0 <= k < |idx| :: Shift(idx)[k] >= 1
  {
  }

  /** The head kept in front of an embedded tail. */
  lemma ConsEmbeds<T>(sub: seq<T>, xs: seq<T>, idx: seq<int>)
    requires |xs| > 0 && EmbedsAt(sub, xs[1..], idx)
    ensures EmbedsAt([xs[0]] + sub, xs, [0] + Shift(idx))
  {
    ShiftEmbeds(sub, xs, idx);
    var I := [0] + Shift(idx);
    var r := [xs[0]] + sub;
    forall k | 0 <= k < |I|
      ensures 0 <= I[k] < |xs| && r[k] == xs[I[k]]
    {
      if k > 0 {
        assert I[k] == Shift(idx)[k - 1];
      }
    }
  }

  /** Membership in a shifted index list. */
  lemma ShiftMember(idx: seq<int>, i: int)
    ensures i in Shift(idx) <==> i - 1 in idx
  {
    if i in Shift(idx) {
      var k :| 0 <= k < |idx| && Shift(idx)[k] == i;
    }
    if i - 1 in idx {
      var k :| 0 <= k < |idx| && idx[k] == i - 1;
      assert Shift(idx)[k] == i;
    }
  }

  /** `Filter` keeps its elements at increasing positions of `xs`. */
  lemma {:induction false} FilterEmbeds<T>(xs: seq<T>, p: T -> bool)
    ensures EmbedsAt(Filter(xs, p), xs, KeptIndices(xs, p))
    ensures forall k | 0 <= k < |KeptIndices(xs, p)| :: KeptIndices(xs, p)[k] >= 0
    decreases |xs|
  {
    if |xs| > 0 {
      FilterEmbeds(xs[1..], p);
      ShiftEmbeds(Filter(xs[1..], p), xs, KeptIndices(xs[1..], p));
      if p(xs[0]) {
        ConsEmbeds(Filter(xs[1..], p), xs, KeptIndices(xs[1..], p));
      }
    }
  }

  /** `Filter` keeps exactly the positions whose element satisfies `p`. */
  lemma {:induction false} FilterKeepsExactly<T>(xs: seq<T>, p: T -> bool)
    ensures forall i | 0 <= i < |xs| :: p(xs[i]) <==> i in KeptIndices(xs, p)
    decreases |xs|
  {
    if |xs| > 0 {
      FilterKeepsExactly(xs[1..], p);
      FilterEmbeds(xs[1..], p);
      var J := KeptIndices(xs[1..], p);
      forall i | 0 <= i < |xs|
        ensures p(xs[i]) <==> i in KeptIndices(xs, p)
      {
        ShiftMember(J, i);
        if i == 0 {
          assert -1 !in J;
        } else {
          assert xs[i] == xs[1..][i - 1];
        }
      }
    }
  }

  /**
   * `Filter` is the order-preserving subsequence of exactly the elements satisfying `p`:
   * it keeps, at increasing positions, precisely the positions whose element satisfies `p`.
   */
  lemma FilterSelects<T>(xs: seq<T>, p: T -> bool)
    ensures EmbedsAt(Filter(xs, p), xs, KeptIndices(xs, p))
    ensures forall i | 0 <= i < |xs| :: p(xs[i]) <==> i in KeptIndices(xs, p)
  {
    FilterEmbeds(xs, p);
    FilterKeepsExactly(xs, p);
  }

  /** A filtered sequence is an order-preserving subsequence of its source. */
  lemma FilterIsSubseq<T>(xs: seq<T>, p: T -> bool)
    ensures IsSubseq(Filter(xs, p), xs)
  {
    FilterSelects(xs, p);
  }

  /** Each element occurs in the result as often as in `xs` when it satisfies `p`, and not at all otherwise. */
  lemma {:induction false} FilterMultiplicity<T>(xs: seq<T>, p: T -> bool, y: T)
    ensures multiset(Filter(xs, p))[y] == if p(y) then multiset(xs)[y] else 0
    decreases |xs|
  {
    if |xs| > 0 {
      FilterMultiplicity(xs[1..], p, y);
      assert xs == [xs[0]] + xs[1..];
    }
  }

  /** Filtering with a predicate every element satisfies changes nothing. */
  lemma {:induction false} FilterAll<T>(xs: seq<T>, p: T -> bool)
    requires forall i | 0 <= i < |xs| :: p(xs[i])
    ensures Filter(xs, p) == xs
    decreases |xs|
  {
    if |xs| > 0 {
      FilterAll(xs[1..], p);
    }
  }

  /** Filtering with a predicate no element satisfies leaves nothing. */
  lemma {:induction false} FilterNone<T>(xs: seq<T>, p: T -> bool)
    requires forall i | 0 <= i < |xs| :: !p(xs[i])
    ensures Filter(xs, p) == []
    decreases |xs|
  {
    if |xs| > 0 {
      FilterNone(xs[1..], p);
    }
  }

  /** Two predicates that agree on every element select the same subsequence. */
  lemma {:induction false} FilterAgree<T>(xs: seq<T>, p: T -> bool, q: T -> bool)
    requires forall i | 0 <= i < |xs| :: p(xs[i]) == q(xs[i])
    ensures Filter(xs, p) == Filter(xs, q)
    decreases |xs|
  {
    if |xs| > 0 {
      FilterAgree(xs[1..], p, q);
    }
  }

  /** Filtering twice is filtering once with the conjunction. */
  lemma {:induction false} FilterFilter<T>(xs: seq<T>, p: T -> bool, q: T -> bool)
    ensures Filter(Filter(xs, p), q) == Filter(xs, And(p, q))
    decreases |xs|
  {
    if |xs| > 0 {
      FilterFilter(xs[1..], p, q);
    }
  }

  /** Every element is kept either by `p` or by its negation. */
  lemma {:induction false} FilterSplitsLength<T>(xs: seq<T>, p: T -> bool)
    ensures |Filter(xs, p)| + |Filter(xs, Not(p))| == |xs|
    decreases |xs|
  {
    if |xs| > 0 {
      FilterSplitsLength(xs[1..], p);
    }
  }

  /** A weaker predicate keeps at least as many elements. */
  lemma {:induction false} FilterMonotone<T>(xs: seq<T>, p: T -> bool, q: T -> bool)
    requires forall i | 0 <= i < |xs| :: p(xs[i]) ==> q(xs[i])
    ensures |Filter(xs, p)| <= |Filter(xs, q)|
    decreases |xs|
  {
    if |xs| > 0 {
      FilterMonotone(xs[1..], p, q);
    }
  }

  /** When `p` holds at position `k` and nowhere else, the filter keeps exactly that element. */
  lemma {:induction false} FilterExactlyOne<T>(xs: seq<T>, p: T -> bool, k: int)
    requires 0 <= k < |xs|
    requires forall i | 0 <= i < |xs| :: p(xs[i]) <==> i == k
    ensures Filter(xs, p) == [xs[k]]
    decreases |xs|
  {
    if k == 0 {
      FilterNone(xs[1..], p);
    } else {
      FilterExactlyOne(xs[1..], p, k - 1);
    }
  }

  /** When no two positions both satisfy `p`, the filter keeps at most one element. */
  lemma {:induction false} FilterAtMostOne<T>(xs: seq<T>, p: T -> bool)
    requires forall i, j | 0 <= i < j < |xs| :: !(p(xs[i]) && p(xs[j]))
    ensures |Filter(xs, p)| <= 1
    decreases |xs|
  {
    if |xs| > 0 {
      if p(xs[0]) {
        FilterNone(xs[1..], p);
      } else {
        FilterAtMostOne(xs[1..], p);
      }
    }
  }

  /** A subsequence of a subsequence is a subsequence. */
  lemma SubseqTransitive<T>(a: seq<T>, b: seq<T>, c: seq<T>)
    requires IsSubseq(a, b) && IsSubseq(b, c)
    ensures IsSubseq(a, c)
  {
    var ia :| EmbedsAt(a, b, ia);
    var ib :| EmbedsAt(b, c, ib);
    var idx := seq(|ia|, k requires 0 <= k < |ia| => ib[ia[k]]);
    assert EmbedsAt(a, c, idx);
  }

  /** Every list is a subsequence of itself. */
  lemma SubseqOfSelf<T>(xs: seq<T>)
    ensures IsSubseq(xs, xs)
  {
    var idx := seq(|xs|, k requires 0 <= k < |xs| => k);
    assert EmbedsAt(xs, xs, idx);
  }
}

=== FILE: stable_sort.dfy ===
/**
 * Stable sorting by an integer key, the behaviour `Array.prototype.sort` must have
 * (ECMAScript 2019 onwards) when given the comparator `(a, b) => key(a) - key(b)`.
 * The sort is written as an insertion sort; `StableSortIsUnique` shows that any
 * sorted rearrangement that keeps equal-key elements in their input order is this one,
 * so the choice of algorithm does not matter.
 */
module StableSort {
  import opened Seqs

  /** Keys never decrease from left to right. */
  ghost predicate SortedBy<T>(xs: seq<T>, key: T -> int) {
    forall i, j | 0 <= i < j < |xs| :: key(xs[i]) <= key(xs[j])
  }

  /** The elements whose key is `k`, in order: the run a stable sort must keep intact. */
  function KeyClass<T>(xs: seq<T>, key: T -> int, k: int): seq<T> {
    Filter(xs, x => key(x) == k)
  }

  /** Places `x` in front of the first element whose key is not smaller than its own. */
  function Insert<T>(x: T, s: seq<T>, key: T -> int): (r: seq<T>)
    ensures multiset(r) == multiset(s) + multiset{x}
    ensures SortedBy(s, key) ==> SortedBy(r, key)
    decreases |s|
  {
    if |s| == 0 || key(x) <= key(s[0]) then [x] + s
    else
      var rest := Insert(x, s[1..], key);
      assert s == [s[0]] + s[1..];
      InsertStep(x, s, key, rest);
      [s[0]] + rest
  }

  /** A sorted sequence stays sorted behind an element whose key bounds all of its keys. */
  lemma PrependSorted<T>(y: T, s: seq<T>, key: T -> int)
    requires SortedBy(s, key)
    requires forall z | z in multiset(s) :: key(y) <= key(z)
    ensures SortedBy([y] + s, key)
  {
    forall i, j | 0 <= i < j < |[y] + s|
      ensures key(([y] + s)[i]) <= key(([y] + s)[j])
    {
      if i == 0 {
        assert s[j - 1] in multiset(s);
      }
    }
  }

  /** The recursive case of `Insert`: the skipped head stays in front. */
  lemma InsertStep<T>(x: T, s: seq<T>, key: T -> int, rest: seq<T>)
    requires |s| > 0 && key(x) > key(s[0])
    requires multiset(rest) == multiset(s[1..]) + multiset{x}
    requires SortedBy(s[1..], key) ==> SortedBy(rest, key)
    ensures SortedBy(s, key) ==> SortedBy([s[0]] + rest, key)
  {
    if SortedBy(s, key) {
      forall z | z in multiset(rest)
        ensures key(s[0]) <= key(z)
      {
        if z != x {
          assert z in s[1..];
          var i :| 0 <= i < |s[1..]| && s[1..][i] == z;
          assert s[i + 1] == z;
        }
      }
      assert SortedBy(s[1..], key);
      PrependSorted(s[0], rest, key);
    }
  }

  /** The input sorted by key, ties kept in input order. */
  function Sort<T>(xs: seq<T>, key: T -> int): (r: seq<T>)
    ensures multiset(r) == multiset(xs)
    ensures SortedBy(r, key)
    decreases |xs|
  {
    if |xs| == 0 then []
    else
      assert xs == [xs[0]] + xs[1..];
      Insert(xs[0], Sort(xs[1..], key), key)
  }

  /** The key class of a sequence with a given head. */
  lemma KeyClassCons<T>(x: T, s: seq<T>, key: T -> int, k: int)
    ensures KeyClass([x] + s, key, k) == (if key(x) == k then [x] else []) + KeyClass(s, key, k)
  {
    assert ([x] + s)[1..] == s;
  }

  /** Inserting into a sorted sequence keeps every key class as if `x` had been put in front. */
  lemma {:induction false} InsertKeepsClasses<T>(x: T, s: seq<T>, key: T -> int, k: int)
    requires SortedBy(s, key)
    ensures KeyClass(Insert(x, s, key), key, k) == KeyClass([x] + s, key, k)
    decreases |s|
  {
    if |s| > 0 && key(x) > key(s[0]) {
      var t := s[1..];
      InsertKeepsClasses(x, t, key, k);
      KeyClassCons(s[0], Insert(x, t, key), key, k);
      KeyClassCons(x, t, key, k);
      KeyClassCons(x, s, key, k);
      assert s == [s[0]] + t;
      KeyClassCons(s[0], t, key, k);
    }
  }

  /** Sorting keeps every key class exactly: equal keys stay in their input order. */
  lemma {:induction false} SortIsStable<T>(xs: seq<T>, key: T -> int, k: int)
    ensures KeyClass(Sort(xs, key), key, k) == KeyClass(xs, key, k)
    decreases |xs|
  {
    if |xs| > 0 {
      var t := xs[1..];
      SortIsStable(t, key, k);
      InsertKeepsClasses(xs[0], Sort(t, key), key, k);
      KeyClassCons(xs[0], Sort(t, key), key, k);
      assert xs == [xs[0]] + t;
      KeyClassCons(xs[0], t, key, k);
    }
  }

  /** The head of a sorted sequence has the least key. */
  lemma SortedHeadLeast<T>(s: seq<T>, key: T -> int, y: T)
    requires SortedBy(s, key) && y in s
    ensures key(s[0]) <= key(y)
  {
    var i :| 0 <= i < |s| && s[i] == y;
  }

  /**
   * Two sorted sequences with the same key classes are equal: a stable sort's output
   * is determined by its input alone.
   */
  lemma {:induction false} StableSortIsUnique<T>(a: seq<T>, b: seq<T>, key: T -> int)
    requires SortedBy(a, key) && SortedBy(b, key)
    requires forall k :: KeyClass(a, key, k) == KeyClass(b, key, k)
    ensures a == b
    decreases |a|
  {
    if |a| == 0 {
      if |b| > 0 {
        assert b == [b[0]] + b[1..];
        KeyClassCons(b[0], b[1..], key, key(b[0]));
        assert false;
      }
    } else if |b| == 0 {
      assert a == [a[0]] + a[1..];
      KeyClassCons(a[0], a[1..], key, key(a[0]));
      assert false;
    } else {
      var a', b' := a[1..], b[1..];
      assert a == [a[0]] + a';
      assert b == [b[0]] + b';
      KeyClassCons(a[0], a', key, key(a[0]));
      KeyClassCons(b[0], b', key, key(b[0]));
      assert a[0] in KeyClass(b, key, key(a[0]));
      SortedHeadLeast(b, key, a[0]);
      assert b[0] in KeyClass(a, key, key(b[0]));
      SortedHeadLeast(a, key, b[0]);
      var k0 := key(a[0]);
      assert key(b[0]) == k0;
      assert KeyClass(a, key, k0)[0] == a[0];
      assert KeyClass(b, key, k0)[0] == b[0];
      assert a[0] == b[0];
      forall k
        ensures KeyClass(a', key, k) == KeyClass(b', key, k)
      {
        KeyClassCons(a[0], a', key, k);
        KeyClassCons(b[0], b', key, k);
        var head := if key(a[0]) == k then [a[0]] else [];
        assert KeyClass(a', key, k) == KeyClass(a, key, k)[|head|..];
        assert KeyClass(b', key, k) == KeyClass(b, key, k)[|head|..];
      }
      StableSortIsUnique(a', b', key);
    }
  }

  /** `Sort` is the only sorted rearrangement that keeps every key class in input order. */
  lemma SortIsTheStableSort<T>(xs: seq<T>, key: T -> int, r: seq<T>)
    requires SortedBy(r, key)
    requires forall k :: KeyClass(r, key, k) == KeyClass(xs, key, k)
    ensures r == Sort(xs, key)
  {
    forall k
      ensures KeyClass(r, key, k) == KeyClass(Sort(xs, key), key, k)
    {
      SortIsStable(xs, key, k);
    }
    StableSortIsUnique(r, Sort(xs, key), key);
  }
}

=== FILE: status_badge.dfy ===
/**
 * The coloured status pill used by the bus detail and fleet screens: its style and
 * its label, for bus, pollution and maintenance statuses given as strings.
 */
module StatusBadge {
  import opened Options
  import opened Records
  import opened Text

  /** The badge's `type` prop. */
  datatype BadgeType = BusBadge | PollutionBadge | MaintenanceBadge

  /** `type` defaults to the bus badge when omitted. */
  function TypeOrDefault(t: Option<BadgeType>): (r: BadgeType)
    ensures t.Some? ==> r == t.value
    ensures t.None? ==> r == BusBadge
  {
    t.GetOr(BusBadge)
  }

  const Green: string := "bg-green-100 text-green-700"
  const Yellow: string := "bg-yellow-100 text-yellow-700"
  const Red: string := "bg-red-100 text-red-700"
  const Grey: string := "bg-gray-100 text-gray-700"

  /** The statuses a badge of the given kind knows; any other string is drawn grey. */
  function Known(t: BadgeType): set<string> {
    match t
    case BusBadge => {"on-time", "delayed", "overcrowded"}
    case PollutionBadge => {"low", "medium", "high"}
    case MaintenanceBadge => {"ok", "needs-service"}
  }

  /**
   * `getStyles`: the colour classes for a status of the given kind; one of the four
   * pills, grey exactly for a status the kind does not know, and red for the worst
   * known status only.
   */
  function Styles(t: BadgeType, status: string): (style: string)
    ensures style in {Green, Yellow, Red, Grey}
    ensures style == Grey <==> status !in Known(t)
    ensures style == Red <==> status == (match t
                                         case BusBadge => "overcrowded"
                                         case PollutionBadge => "high"
                                         case MaintenanceBadge => "needs-service")
  {
    ColoursDiffer();
    match t
    case BusBadge =>
      if status == "on-time" then Green
      else if status == "delayed" then Yellow
      else if status == "overcrowded" then Red
      else Grey
    case PollutionBadge =>
      if status == "low" then Green
      else if status == "medium" then Yellow
      else if status == "high" then Red
      else Grey
    case MaintenanceBadge =>
      if status == "ok" then Green
      else if status == "needs-service" then Red
      else Grey
  }

  /**
   * `getLabel`: the text of the badge. A bus badge reads "Delayed" for every status
   * other than on time and overcrowded; a pollution badge shows the status with its
   * first character upper-cased; a maintenance badge reads "OK" only for ok.
   */
  function Label(t: BadgeType, status: string): (text: string)
    ensures t == BusBadge ==> text in {"On Time", "Overcrowded", "Delayed"}
    ensures t == BusBadge ==> (text == "Delayed" <==> status != "on-time" && status != "overcrowded")
    ensures t == PollutionBadge ==> |text| == |status|
    ensures t == PollutionBadge && |status| > 0 ==> text[0] == UpperChar(status[0]) && text[1..] == status[1..]
    ensures t == MaintenanceBadge ==> text in {"OK", "Needs Service"}
    ensures t == MaintenanceBadge ==> (text == "OK" <==> status == "ok")
  {
    match t
    case BusBadge =>
      if status == "on-time" then "On Time"
      else if status == "overcrowded" then "Overcrowded"
      else "Delayed"
    case PollutionBadge => Capitalize(status)
    case MaintenanceBadge => if status == "ok" then "OK" else "Needs Service"
  }

  /** The four colour classes are pairwise different. */
  lemma ColoursDiffer()
    ensures Green != Yellow && Green != Red && Green != Grey
    ensures Yellow != Red && Yellow != Grey && Red != Grey
  {
    assert Green[3] != Yellow[3] && Green[3] != Red[3] && Green[5] != Grey[5];
    assert Yellow[3] != Red[3] && Yellow[3] != Grey[3] && Red[3] != Grey[3];
  }

  /**
   * The bus badge on the four statuses the backend stores: each running status has
   * its own colour and label; a breakdown is grey but reads "Delayed".
   */
  lemma BusBadgeTable()
    ensures Styles(BusBadge, BusStatusText(OnTime)) == Green && Label(BusBadge, BusStatusText(OnTime)) == "On Time"
    ensures Styles(BusBadge, BusStatusText(Delayed)) == Yellow && Label(BusBadge, BusStatusText(Delayed)) == "Delayed"
    ensures Styles(BusBadge, BusStatusText(Overcrowded)) == Red
    ensures Label(BusBadge, BusStatusText(Overcrowded)) == "Overcrowded"
    ensures Styles(BusBadge, BusStatusText(Breakdown)) == Grey && Label(BusBadge, BusStatusText(Breakdown)) == "Delayed"
  {
  }

  /**
   * Any bus status string reads as one of three labels, and two badges with the
   * same label can still differ in colour: "Delayed" is yellow for a delay and grey
   * for a breakdown.
   */
  lemma BusLabelsAreThree(status: string)
    ensures Label(BusBadge, status) in {"On Time", "Overcrowded", "Delayed"}
    ensures Label(BusBadge, "breakdown") == Label(BusBadge, "delayed")
    ensures Styles(BusBadge, "breakdown") != Styles(BusBadge, "delayed")
  {
    ColoursDiffer();
  }

  /** The pollution label capitalises the stored level and keeps the rest of it. */
  lemma PollutionLabelCapitalises(status: string)
    requires |status| > 0
    ensures |Label(PollutionBadge, status)| == |status|
    ensures Label(PollutionBadge, status)[0] == UpperChar(status[0])
    ensures Label(PollutionBadge, status)[1..] == status[1..]
  {
  }

  /** The pollution badge on the three stored levels. */
  lemma PollutionBadgeTable()
    ensures Styles(PollutionBadge, PollutionText(Low)) == Green && Label(PollutionBadge, PollutionText(Low)) == "Low"
    ensures Styles(PollutionBadge, PollutionText(Medium)) == Yellow
    ensures Label(PollutionBadge, PollutionText(Medium)) == "Medium"
    ensures Styles(PollutionBadge, PollutionText(High)) == Red && Label(PollutionBadge, PollutionText(High)) == "High"
  {
  }

  /** The maintenance badge: green "OK" for ok, red "Needs Service" for a due service. */
  lemma MaintenanceBadgeTable()
    ensures Styles(MaintenanceBadge, MaintenanceText(Ok)) == Green && Label(MaintenanceBadge, MaintenanceText(Ok)) == "OK"
    ensures Styles(MaintenanceBadge, MaintenanceText(NeedsService)) == Red
    ensures Label(MaintenanceBadge, MaintenanceText(NeedsService)) == "Needs Service"
  {
  }

  /** Red marks exactly the bad end of each scale the backend stores. */
  lemma RedMeansTrouble(b: Bus)
    ensures Styles(PollutionBadge, PollutionText(b.pollutionLevel)) == Red <==> b.pollutionLevel == High
    ensures Styles(MaintenanceBadge, MaintenanceText(b.maintenanceStatus)) == Red
      <==> b.maintenanceStatus == NeedsService
  {
    ColoursDiffer();
  }
}

=== FILE: tailwind.dfy ===
/**
 * The colour-pill class strings the screens use for status badges: a pale
 * background and a darker text of one hue.
 */
module Tailwind {

  /** The palette hues the pills use. */
  datatype Hue = GreenHue | OrangeHue | YellowHue | RedHue | GrayHue

  function HueName(h: Hue): string {
    match h
    case GreenHue => "green"
    case OrangeHue => "orange"
    case YellowHue => "yellow"
    case RedHue => "red"
    case GrayHue => "gray"
  }

  /** `bg-<hue>-100 text-<hue>-<shade>`: a pill of one hue with the given text shade. */
  function Pill(h: Hue, textShade: string): string {
    "bg-" + HueName(h) + "-100 text-" + HueName(h) + "-" + textShade
  }

  /** The pills the screens spell out, one class string each. */
  lemma GreenPill() ensures Pill(GreenHue, "700") == "bg-green-100 text-green-700" {}
  lemma OrangePill() ensures Pill(OrangeHue, "700") == "bg-orange-100 text-orange-700" {}
  lemma YellowPill() ensures Pill(YellowHue, "700") == "bg-yellow-100 text-yellow-700" {}
  lemma DarkYellowPill() ensures Pill(YellowHue, "800") == "bg-yellow-100 text-yellow-800" {}
  lemma RedPill() ensures Pill(RedHue, "700") == "bg-red-100 text-red-700" {}
  lemma GrayPill() ensures Pill(GrayHue, "700") == "bg-gray-100 text-gray-700" {}
}

=== FILE: text.dfy ===
/**
 * The string operations the screens use: ASCII case folding (`toLowerCase`,
 * `toUpperCase`), substring search (`includes`) and the sum of UTF-16 code units
 * that `split('')` and `charCodeAt` produce.
 */
module Text {

  /** `toLowerCase` on one character, restricted to ASCII letters. */
  function LowerChar(c: char): char {
    if 'A' <= c <= 'Z' then (c as int + 32) as char else c
  }

  /** `toUpperCase` on one character, restricted to ASCII letters. */
  function UpperChar(c: char): char {
    if 'a' <= c <= 'z' then (c as int - 32) as char else c
  }

  /** `toLowerCase` on a string, restricted to ASCII letters. */
  function Lower(s: string): string {
    seq(|s|, i requires 0 <= i < |s| => LowerChar(s[i]))
  }

  /** `t` is a prefix of `s`. */
  predicate StartsWith(s: string, t: string) {
    |t| <= |s| && s[..|t|] == t
  }

  /** `s.includes(t)`: `t` occurs in `s`, scanning the start positions from the left. */
  predicate Contains(s: string, t: string)
    decreases |s|
  {
    StartsWith(s, t) || (|s| > 0 && Contains(s[1..], t))
  }

  /** `t` occurs in `s` at position `i`. */
  predicate OccursAt(s: string, t: string, i: int) {
    0 <= i && i + |t| <= |s| && s[i..i + |t|] == t
  }

  /** The scan finds `t` exactly when `t` occurs at some position of `s`. */
  lemma {:induction false} ContainsIffOccurs(s: string, t: string)
    ensures Contains(s, t) <==> exists i :: OccursAt(s, t, i)
    decreases |s|
  {
    if StartsWith(s, t) {
      assert s[..|t|] == s[0..|t|];
      assert OccursAt(s, t, 0);
    } else if |s| > 0 {
      ContainsIffOccurs(s[1..], t);
      if Contains(s[1..], t) {
        var i :| OccursAt(s[1..], t, i);
        assert s[1..][i..i + |t|] == s[i + 1..i + 1 + |t|];
        assert OccursAt(s, t, i + 1);
      }
      if exists i :: OccursAt(s, t, i) {
        var i :| OccursAt(s, t, i);
        assert s[1..][i - 1..i - 1 + |t|] == s[i..i + |t|];
        assert OccursAt(s[1..], t, i - 1);
      }
    }
  }

  /** Every string contains the empty string. */
  lemma ContainsEmpty(s: string)
    ensures Contains(s, "")
  {
    assert StartsWith(s, "");
  }

  /** Every string contains itself. */
  lemma ContainsSelf(s: string)
    ensures Contains(s, s)
  {
    assert StartsWith(s, s);
  }

  /** `hay.toLowerCase().includes(needle.toLowerCase())`. */
  predicate IncludesIgnoringCase(hay: string, needle: string) {
    Contains(Lower(hay), Lower(needle))
  }

  /** Case-insensitive search for the empty string always succeeds. */
  lemma IncludesEmpty(hay: string)
    ensures IncludesIgnoringCase(hay, "")
  {
    assert Lower("") == "";
    ContainsEmpty(Lower(hay));
  }

  /** A string that equals the search term contains it, whatever the letter case. */
  lemma IncludesItself(s: string)
    ensures IncludesIgnoringCase(s, s)
  {
    ContainsSelf(Lower(s));
  }

  /**
   * A stored status written as a title: hyphens become spaces and the first letter
   * of every word is upper-cased.
   */
  function Titled(s: string): string {
    seq(|s|, i requires 0 <= i < |s| =>
      if s[i] == '-' then ' '
      else if i == 0 || s[i - 1] == '-' then UpperChar(s[i])
      else s[i])
  }

  /** `s.charAt(0).toUpperCase() + s.slice(1)`: the first character upper-cased. */
  function Capitalize(s: string): string {
    if |s| == 0 then "" else [UpperChar(s[0])] + s[1..]
  }

  /**
   * The sum of the UTF-16 code units that encode `c`: one unit below U+10000,
   * otherwise a high and a low surrogate.
   */
  function CodeUnitTotal(c: char): nat {
    var v := c as int;
    if v < 0x1_0000 then v
    else (0xD800 + (v - 0x1_0000) / 0x400) + (0xDC00 + (v - 0x1_0000) % 0x400)
  }

  /** `s.split('').reduce((sum, ch) => sum + ch.charCodeAt(0), 0)`. */
  function CodeUnitSum(s: string): nat
    decreases |s|
  {
    if |s| == 0 then 0 else CodeUnitTotal(s[0]) + CodeUnitSum(s[1..])
  }

  /** The sum over a concatenation is the sum of the sums. */
  lemma {:induction false} CodeUnitSumAppend(a: string, b: string)
    ensures CodeUnitSum(a + b) == CodeUnitSum(a) + CodeUnitSum(b)
    decreases |a|
  {
    if |a| > 0 {
      assert (a + b)[0] == a[0];
      assert (a + b)[1..] == a[1..] + b;
      CodeUnitSumAppend(a[1..], b);
    } else {
      assert a + b == b;
    }
  }

  /** The sum does not depend on the order of the characters. */
  lemma {:induction false} CodeUnitSumPermutation(a: string, b: string)
    requires multiset(a) == multiset(b)
    ensures CodeUnitSum(a) == CodeUnitSum(b)
    decreases |a|
  {
    if |a| == 0 {
      assert |b| == |multiset(b)|;
    } else {
      var c := a[0];
      assert a == [c] + a[1..];
      assert c in multiset(b);
      var i :| 0 <= i < |b| && b[i] == c;
      var rest := b[..i] + b[i + 1..];
      assert b == b[..i] + ([c] + b[i + 1..]);
      assert multiset(b) == multiset(b[..i]) + multiset{c} + multiset(b[i + 1..]);
      assert multiset(a) == multiset{c} + multiset(a[1..]);
      assert multiset(rest) == multiset(b[..i]) + multiset(b[i + 1..]);
      assert multiset(a[1..]) == multiset(a) - multiset{c};
      assert multiset(rest) == multiset(b) - multiset{c};
      CodeUnitSumPermutation(a[1..], rest);
      CodeUnitSumAppend(b[..i], [c] + b[i + 1..]);
      CodeUnitSumAppend(b[..i], b[i + 1..]);
      assert ([c] + b[i + 1..])[0] == c;
      assert ([c] + b[i + 1..])[1..] == b[i + 1..];
      assert CodeUnitSum([c] + b[i + 1..]) == CodeUnitTotal(c) + CodeUnitSum(b[i + 1..]);
    }
  }
}
